=== FILE: README.md ===
# pyvista point-set connectivity, modelled in Dafny

This project models the part of pyvista's `pyvista/core/pointset.py` that works on
connectivity and shapes itself instead of handing the work to VTK.

- **VTK's flat connectivity buffer.** A cell array is a sequence of runs `[count, id_0 … id_{count-1}]`.
  - The `lines` setter, the `faces` setter and `PolyData._from_arrays` count the runs with a cursor walk, `c += buf[c] + 1`.
  - `_make_vertice_cells` builds the buffer of single-point vertex cells.
  - `is_all_triangles` checks the stride-4 triangle layout.
  - A 2-D id array of two columns, or an explicit `verts=True`, files the cells as vertex cells. Anything else files them as polygons.
- **`UnstructuredGrid.linear_copy`.**
  - It copies the cell-type array and relabels the six quadratic tags to their linear counterparts.
  - It copies the cells buffer. In every cell that was a quadratic quad or a quadratic triangle, it overwrites the trailing slots with the cell's first point id.
- **`StructuredGrid`.**
  - `_from_arrays` refuses x, y and z arrays of different shapes, pads the shape with 1s to three extents, and stores the points in Fortran order.
  - The `x`, `y` and `z` properties reshape a column of the points back in Fortran order.

Modules, one per concern:

- `Outcomes` (`outcomes.dfy`): the `Result`/`Outcome` wrappers and the errors they carry.
  - `IndexError`, `ShapeMismatch`, `ReshapeError` and `DimensionsError` are failures of the modelled code.
  - `MalformedConnectivity` belongs only to the reference reading `Decode`. The walk in `pointset.py` raises nothing on a malformed buffer; `WalkCountsOvershootingRun` states what it does instead.
- `Connectivity` (`connectivity.dfy`):
  - the run format. `Encode`/`Decode` are its reference reading, with both round trips proved.
  - the cursor walk (`CountRuns`, specified by `Heads`/`WalkEnd`);
  - the vertex-cell buffer, the triangle check, and the shapes of id arrays.
- `PolyDataModel` (`poly_data.dfy`): a `PolyData` class whose vertex, line and polygon cell arrays the setters reassign.
- `CellTypes` (`cell_types.dfy`): the VTK tag constants and the quadratic-to-linear map.
- `LinearCopyModel` (`linear_copy.dfy`):
  - numpy's boolean masks, fancy gather and fancy assignment, with numpy's index rules;
  - the in-place loops over `array<int>`;
  - an `UnstructuredGrid` class whose `LinearCopy` builds the copy;
  - the lemmas that say which positions the patch writes and what it writes there.
- `StructuredGridModel` (`structured_grid.dfy`): C-order and Fortran-order index maps and their bijections, Fortran ravel and reshape, and a `StructuredGrid` class.

What `linear_copy` does, in detail:

- Runs of tetrahedra, pyramids, wedges and hexahedra are not shortened. Only their tag changes, and the cells buffer is copied unchanged for them (`pyvista/core/pointset.py:668-671`).
- The value written into the patched slots is the one at buffer position `offset + 1`. That is the cell's first point id, the id right after the count.
- No unsupported-type or length-mismatch error arises. The only failure is numpy's IndexError, when a patched slot falls outside the cells buffer or the masks do not fit the offset array.
- The docstring lists four conversions. The code makes six, quads and triangles included, and the model makes six.

## Model

| member | source | states |
|---|---|---|
| Connectivity.CountRuns | pyvista/core/pointset.py:197-201 | The loop (also at lines 171-175 and 263-267) ends with the cursor at `WalkEnd` and the counter equal to the number of run heads the cursor visits |
| Connectivity.WalkEndsAtSizeIffTiled | pyvista/core/pointset.py:197-201 | The runs tile the buffer exactly iff the walk reads only non-negative counts and stops exactly at `size`; then the count equals the number of runs |
| Connectivity.WalkOverEncoded | pyvista/core/pointset.py:197-201 | On a buffer made of runs, the walk terminates, visits exactly the run starts in order, counts every run and stops at `size` |
| Connectivity.WalkCountsOvershootingRun | pyvista/core/pointset.py:197-201 | A last run that declares more ids than remain is still counted; the walk stops past the end without error, although the buffer is malformed |
| Connectivity.CellCountOfRuns | pyvista/core/pointset.py:195-206 | The count passed to `SetCells` for a 1-D buffer of runs is the number of runs |
| Connectivity.EncodeDecode | pyvista/core/pointset.py:197-201 | A buffer that splits into runs is exactly the concatenation of those runs |
| Connectivity.DecodeEncode | pyvista/core/pointset.py:197-201 | Any sequence of cells reads back from its run encoding |
| Connectivity.DecodeAppend | pyvista/core/pointset.py:197-201 | Runs followed by a well-formed tail read back as those runs, then the tail's runs |
| Connectivity.VertexCellsAreSinglePointRuns | pyvista/core/pointset.py:150-155 | `_make_vertice_cells(n)` is the encoding of the n single-point cells `[0]`, `[1]`, …, `[n-1]` |
| Connectivity.VertexCellsLayout | pyvista/core/pointset.py:150-155 | The buffer has length `2n`; entry `2i` is 1 and entry `2i+1` is `i` |
| Connectivity.VertexCellsWalk | pyvista/core/pointset.py:150-155 | Walking the vertex-cell buffer counts exactly `n` runs and stops at `2n`; run `i` references point `i` only |
| Connectivity.VertexCells | pyvista/core/pointset.py:150-155 | `_make_vertice_cells(n)`: the rows `[1, i]` flattened row-major. `VertexCellsAreSinglePointRuns` and `VertexCellsLayout` give its contents; `VertexCellsWalk` gives how the walk reads it |
| Connectivity.AllTrianglesIffTriangleRuns | pyvista/core/pointset.py:221-223 | `size % 4 == 0` with every entry at a multiple of 4 equal to 3 holds iff the buffer splits into runs that are all triangles |
| Connectivity.AllTriangles | pyvista/core/pointset.py:221-223 | The stride-4 test of `is_all_triangles`. `AllTrianglesIffTriangleRuns` states its meaning: the buffer splits into triangle runs only |
| Connectivity.VertsChoice | pyvista/core/pointset.py:207-210 | A 1-D buffer, or a 2-D array of other than two columns, goes to polys unless `verts` is asked for; a two-column 2-D array, or any array with `verts`, goes to verts |
| Connectivity.ToVerts | pyvista/core/pointset.py:207-210 | The verts-or-polys condition of lines 207 and 273. `VertsChoice` states which arrays it sends where |
| Connectivity.CellCount | pyvista/core/pointset.py:195-203 | The count the setters pass to `SetCells`. `CountCells` computes it with the loop; `CellCountOfRuns` shows it is the number of runs of a well-formed buffer |
| PolyDataModel.CountCells | pyvista/core/pointset.py:195-203 | The count is the run walk's count for a 1-D buffer and the row count for a 2-D array |
| PolyDataModel.PolyData.constructor | pyvista/core/pointset.py:109-110 | An empty mesh: no points, no cells |
| PolyDataModel.PolyData.SetLines | pyvista/core/pointset.py:162-181 | The line cell array becomes the counted ids; points, verts and polys are untouched |
| PolyDataModel.PolyData.StoreCells | pyvista/core/pointset.py:205-210 | The counted cells become the verts or the polys, as asked, and the other arrays are untouched |
| PolyDataModel.PolyData.SetFaces | pyvista/core/pointset.py:188-212 | The counted cells go to verts for a two-column 2-D array and to polys otherwise; the other cell arrays and the points are untouched |
| PolyDataModel.PolyData.FromArrays | pyvista/core/pointset.py:251-279 | The points become `vertices`; the counted faces go to verts when `ToVerts(faces, verts)` holds and to polys otherwise, whether or not `deep` is set |
| PolyDataModel.PolyData.FromPoints | pyvista/core/pointset.py:119-124 | One point array gives `n` points and `n` vertex cells built by `_make_vertice_cells` |
| PolyDataModel.PolyData.EnsureVertexCells | pyvista/core/pointset.py:137-139 | Points without any cell get vertex cells through the `faces` setter, which files them as polygons; otherwise nothing changes |
| PolyDataModel.PolyData.NumCells | pyvista/core/pointset.py:137 | `n_cells`: the cells of the three cell arrays, the test `EnsureVertexCells` makes |
| PolyDataModel.PolyData.IsAllTriangles | pyvista/core/pointset.py:221-223 | `is_all_triangles` on the polygon buffer. Its meaning is `AllTrianglesIffTriangleRuns` applied to that buffer |
| CellTypes.LinearTagChangesOnlyQuadratic | pyvista/core/pointset.py:654-666 | A tag changes iff it is one of the six quadratic tags; it then becomes a linear tag, and no result is quadratic |
| CellTypes.LinearTagIdempotent | pyvista/core/pointset.py:654-666 | Relabelling twice is relabelling once |
| CellTypes.LinearTagInjectiveOnQuadratic | pyvista/core/pointset.py:654-666 | Distinct quadratic tags become distinct linear tags |
| LinearCopyModel.ReplaceInPlace | pyvista/core/pointset.py:656-659 | `celltype[celltype == a] = b` replaces exactly the entries equal to `a` |
| LinearCopyModel.ScatterInPlace | pyvista/core/pointset.py:677-680 | `cells[idx] = vals` on the array equals the sequence-level scatter of the old contents |
| LinearCopyModel.RelabelSteps | pyvista/core/pointset.py:656-666 | The six masked assignments in code order give `LinearTag` on every entry; the two masks taken on the way equal the masks of the original tags |
| LinearCopyModel.LinearTypes | pyvista/core/pointset.py:654-666 | The relabelled type array. `RelabelSteps` shows the six masked assignments compute it; `LinearTypesFixed` shows it changes exactly the quadratic tags and holds none afterwards |
| LinearCopyModel.CopyLinearTypes | pyvista/core/pointset.py:654-666 | A fresh type array holding the relabelled tags, with the quadratic-quad and quadratic-triangle masks of the original types |
| LinearCopyModel.PatchQuads | pyvista/core/pointset.py:674-680 | Fails exactly when numpy would raise IndexError; otherwise slots 5 to 8 of the masked cells hold the anchors read before any write |
| LinearCopyModel.PatchTriangles | pyvista/core/pointset.py:682-687 | Fails exactly when numpy would raise IndexError; otherwise slots 4 to 6 of the masked cells hold the anchors read before any write |
| LinearCopyModel.UnstructuredGrid.constructor | pyvista/core/pointset.py:620-622 | The grid keeps the type, offset and cells arrays it is given |
| LinearCopyModel.UnstructuredGrid.LinearCopy | pyvista/core/pointset.py:629-689 | IndexError iff numpy raises it: a mask that does not fit the offset array, or a patched slot outside the cells buffer. Otherwise: a new grid with fresh relabelled types and a fresh patched cells buffer, two distinct new arrays, sharing the offset array. The source grid is not modified |
| LinearCopyModel.StepEffect | pyvista/core/pointset.py:674-680 | For one `if np.any(mask)` block on ordered, non-overlapping cells: the patched slots hold the cell's `offset+1` value, and every other position keeps its value |
| LinearCopyModel.LinearCellsPatches | pyvista/core/pointset.py:668-687 | On well-laid-out offsets no IndexError arises. Quad slots 5-8 and triangle slots 4-6 get the cell's `offset+1` value; every other position keeps its value. In particular each count and the slots before the patch keep theirs |
| LinearCopyModel.LinearCellsOfRuns | pyvista/core/pointset.py:668-687 | On a buffer of runs with offsets at the run heads, the result is again a buffer of the same runs with the same counts; only the mid-edge ids of quadratic quads and triangles are replaced by the first id |
| LinearCopyModel.LinearCells | pyvista/core/pointset.py:668-687 | The patched cells buffer. `LinearCellsPatches` says which positions change and what they get; `LinearCellsOfRuns` says the runs survive with only the mid-edge ids replaced |
| LinearCopyModel.LinearTypesFixed | pyvista/core/pointset.py:654-666 | The types are left alone iff none is quadratic; the result holds no quadratic tag; relabelling is idempotent |
| LinearCopyModel.UnpatchedCellsUnchanged | pyvista/core/pointset.py:668-687 | With no quadratic quad or triangle, the cells buffer comes back unchanged |
| LinearCopyModel.AllLinearUnchanged | pyvista/core/pointset.py:654-687 | On an all-linear grid the types and the cells come back identical |
| LinearCopyModel.QuadraticQuadCell | pyvista/core/pointset.py:674-680 | `[8, p0 … p7]` tagged quadratic quad becomes a quad `[8, p0, p1, p2, p3, p0, p0, p0, p0]` |
| LinearCopyModel.QuadraticTriangleCell | pyvista/core/pointset.py:682-687 | `[6, p0 … p5]` tagged quadratic triangle becomes a triangle `[6, p0, p1, p2, p0, p0, p0]` |
| LinearCopyModel.QuadraticTetraCell | pyvista/core/pointset.py:654-671 | A quadratic tetrahedron keeps its ten-id run unchanged and is only retagged |
| StructuredGridModel.PadShape | pyvista/core/pointset.py:785 | The dimensions are three extents: the shape followed by 1s |
| StructuredGridModel.PadKeepsSize | pyvista/core/pointset.py:780-785 | Padding with 1s keeps the number of points |
| StructuredGridModel.CIndexBijective | pyvista/core/pointset.py:781-782 | C-order positions and grid points correspond one to one |
| StructuredGridModel.FIndexBijective | pyvista/core/pointset.py:781-782 | Fortran-order positions and grid points correspond one to one |
| StructuredGridModel.RavelFAt | pyvista/core/pointset.py:781-782 | `ravel('F')` puts point `(i, j, k)` at `i + nx * (j + ny * k)` |
| StructuredGridModel.ReshapeRavelF | pyvista/core/pointset.py:802-815 | Reshaping in Fortran order undoes raveling in Fortran order |
| StructuredGridModel.RavelReshapeF | pyvista/core/pointset.py:802-815 | Raveling in Fortran order undoes reshaping in Fortran order |
| StructuredGridModel.RavelF | pyvista/core/pointset.py:781-782 | `ravel('F')`. `RavelFAt` places each grid point; `ReshapeRavelF` and `RavelReshapeF` show it is undone by `ReshapeF` |
| StructuredGridModel.ReshapeF | pyvista/core/pointset.py:802-815 | `reshape(dims, order='F')`. `ReshapeRavelF` and `RavelReshapeF` show it is the inverse of `RavelF` |
| StructuredGridModel.GridPoints | pyvista/core/pointset.py:780-782 | The points `_from_arrays` stores. `CoordinatesOfArrays` shows its columns reshape back to x, y and z when the three share one element type |
| StructuredGridModel.Coordinate | pyvista/core/pointset.py:802-815 | The reshape succeeds iff the column has as many entries as the dimensions hold, with shape `[nx, ny, nz]`; otherwise numpy's reshape error |
| StructuredGridModel.CoordinatesOfArrays | pyvista/core/pointset.py:781-815 | After `_from_arrays`, `x`, `y` and `z` give back the arrays passed in, with their shape padded to three extents, for arrays of one element type |
| StructuredGridModel.StructuredGrid.constructor | pyvista/core/pointset.py:740-750 | An empty grid: no points, extents `(0, 0, 0)` |
| StructuredGridModel.StructuredGrid.FromArrays | pyvista/core/pointset.py:762-789 | Fails iff the shapes differ (reported first) or there are more than three extents, and changes nothing then. Otherwise: padded dimensions, Fortran-ordered points, and `x`/`y`/`z` returning the inputs when they share one element type |
| StructuredGridModel.StructuredGrid.SetDimensions | pyvista/core/pointset.py:796-800 | New extents; the points are untouched |
| StructuredGridModel.StructuredGrid.Axis | pyvista/core/pointset.py:802-815 | The `x`, `y` and `z` properties. `StructuredGrid.FromArrays` shows they return the arrays passed in; `Coordinate` gives when the reshape fails |

## Left out

- Connectivity.CountRuns: requires every count the cursor reads to be non-negative (`Advances`). With a negative count the Python loop can step back and never stop, or index from the end; the model does not follow those walks.
- PolyDataModel.CountCells: requires `Countable`: the same non-negative-count condition on a 1-D buffer. `Countable` also asks that a 2-D array hold `nrows * ncols` entries, which every numpy array does.
- PolyDataModel.PolyData.SetLines: requires `Countable`: the same non-negative-count condition on a 1-D buffer. `Countable` also asks that a 2-D array hold `nrows * ncols` entries, which every numpy array does.
- PolyDataModel.PolyData.StoreCells: requires `Countable`: the same non-negative-count condition on a 1-D buffer. `Countable` also asks that a 2-D array hold `nrows * ncols` entries, which every numpy array does.
- PolyDataModel.PolyData.SetFaces: requires `Countable`: the same non-negative-count condition on a 1-D buffer. `Countable` also asks that a 2-D array hold `nrows * ncols` entries, which every numpy array does.
- PolyDataModel.PolyData.FromArrays: requires `Countable`: the same non-negative-count condition on a 1-D buffer. `Countable` also asks that a 2-D array hold `nrows * ncols` entries, which every numpy array does.
- Connectivity.Decode: its own contract says only which error it reports. The round trips `EncodeDecode` and `DecodeEncode` state what it computes.
- Id arrays are modelled only as 1-D buffers or 2-D arrays. Higher-rank id arrays are not modelled; the code would count them by their first extent.
- Integer widths are not modelled. The casts to `pyvista.ID_TYPE` (64-bit) and the 8-bit cell-type array are plain unbounded integers, so 64-bit wrap-around is not represented.
- Connectivity.VertexCells: `_make_vertice_cells` builds its rows in a float64 array before casting to `ID_TYPE`, so its ids are exact only below 2^53 points; the model's ids are exact integers.
- LinearCopyModel.ScatterInPlace: numpy gives no order for repeated indices in one fancy assignment; the model takes the writes in index order, so the last one wins. With cells laid out as `LinearCellsPatches` requires, no index repeats.
- VTK calls are represented only by their effect on the modelled state:
  - `SetCells`, `SetVerts`, `SetPolys`, `SetLines` and `SetPoints` become field assignments;
  - `Modified`, `_face_ref`, `numpy_to_vtk`/`vtk_to_numpy` and the deep/shallow distinctions of those conversions are left out.
- The `deep` flag is modelled only where it picks a code path. In `PolyData._from_arrays` it chooses between setting points and cells directly (lines 251-276) and going through the `points` and `faces` setters (lines 277-279); `PolyDataModel.PolyData.FromArrays` models both branches. The copying-versus-sharing of VTK arrays that `deep` also controls is left out. The type and cells arrays of `linear_copy` are always fresh, as the code makes them.
- The points of `linear_copy`'s copy (`self.copy(deep)`) are not modelled.
- Constructor dispatch by argument type, loading from files, the reader and writer tables, and deep and shallow copies of VTK objects are left out.
  - `PolyDataModel.PolyData.FromPoints` takes the points already as a sequence, so the `reshape((-1, 3))` of a flat point array is not modelled.
- Point coordinates are opaque values (`P` and `T`). No floating-point value is computed.
- StructuredGridModel.StructuredGrid.FromArrays: the points array takes x's dtype (`np.empty((x.size, 3), x.dtype)`, line 781), so `y` and `z` are cast to it when they are stored (line 782). The model gives x, y and z one element type `T` and so assumes they share x's dtype. The round trip of `y` and `z` through `x`/`y`/`z` holds only in that case: with an integer `x` and a float `y` holding 0.5, `grid.y` returns 0. The same holds for `CoordinatesOfArrays` and `GridPoints`.
- StructuredGridModel.StructuredGrid.SetDimensions: takes exactly three extents. The setter's unpacking of other tuples into VTK's `SetDimensions` is not modelled.
- StructuredGridModel.StructuredGrid.FromArrays: a shape of more than three extents is reported as a dimensions error; the exact exception VTK raises is not modelled.
- The ravel and reshape are modelled on the padded three-extent dimensions. Trailing extents of 1 change no position, so this matches numpy on shapes of rank below three.
- Everything VTK computes is left out: centre of mass, areas, volumes, normals, OBB trees, open edges, boolean cuts, curvature, and the `PointGrid` volume.
- `__repr__` and `__str__` are left out.

=== FILE: cell_types.dfy ===
/**
 * The VTK cell-type codes that `pointset.py` imports, with the values VTK gives them,
 * and the quadratic-to-linear relabelling that `UnstructuredGrid.linear_copy` applies.
 */
module CellTypes {

  const VTK_TRIANGLE: int := 5
  const VTK_QUAD: int := 9
  const VTK_TETRA: int := 10
  const VTK_HEXAHEDRON: int := 12
  const VTK_WEDGE: int := 13
  const VTK_PYRAMID: int := 14
  const VTK_QUADRATIC_TRIANGLE: int := 22
  const VTK_QUADRATIC_QUAD: int := 23
  const VTK_QUADRATIC_TETRA: int := 24
  const VTK_QUADRATIC_HEXAHEDRON: int := 25
  const VTK_QUADRATIC_WEDGE: int := 26
  const VTK_QUADRATIC_PYRAMID: int := 27

  /** The six quadratic tags that `linear_copy` relabels. */
  predicate IsQuadratic(t: int)
  {
    t in {VTK_QUADRATIC_TETRA, VTK_QUADRATIC_PYRAMID, VTK_QUADRATIC_WEDGE,
          VTK_QUADRATIC_HEXAHEDRON, VTK_QUADRATIC_QUAD, VTK_QUADRATIC_TRIANGLE}
  }

  /** The six linear tags they become. */
  predicate IsLinear(t: int)
  {
    t in {VTK_TETRA, VTK_PYRAMID, VTK_WEDGE, VTK_HEXAHEDRON, VTK_QUAD, VTK_TRIANGLE}
  }

  /** The tag a cell of tag `t` carries in the copy `linear_copy` returns. */
  function LinearTag(t: int): (lt: int)
  {
    if t == VTK_QUADRATIC_TETRA then VTK_TETRA
    else if t == VTK_QUADRATIC_PYRAMID then VTK_PYRAMID
    else if t == VTK_QUADRATIC_WEDGE then VTK_WEDGE
    else if t == VTK_QUADRATIC_HEXAHEDRON then VTK_HEXAHEDRON
    else if t == VTK_QUADRATIC_QUAD then VTK_QUAD
    else if t == VTK_QUADRATIC_TRIANGLE then VTK_TRIANGLE
    else t
  }

  /** The relabelling changes exactly the quadratic tags, each into a linear one, and
      leaves every other tag, known or not, as it is. */
  lemma LinearTagChangesOnlyQuadratic(t: int)
    ensures LinearTag(t) != t <==> IsQuadratic(t)
    ensures IsQuadratic(t) ==> IsLinear(LinearTag(t))
    ensures !IsQuadratic(LinearTag(t))
  {
  }

  /** Relabelling twice is relabelling once. */
  lemma LinearTagIdempotent(t: int)
    ensures LinearTag(LinearTag(t)) == LinearTag(t)
  {
  }

  /** No two quadratic tags become the same linear tag. */
  lemma LinearTagInjectiveOnQuadratic(s: int, t: int)
    requires IsQuadratic(s) && IsQuadratic(t) && s != t
    ensures LinearTag(s) != LinearTag(t)
  {
  }
}

=== FILE: connectivity.dfy ===
/**
 * VTK's flat connectivity buffer, as pyvista's `PolyData` reads and builds it:
 * a sequence of runs, each written `[count, id_0 … id_{count-1}]`.
 *
 * `Encode`/`Decode` are the reference reading of the format; the cursor walk that
 * the `lines` and `faces` setters and `_from_arrays` run is `Heads`/`WalkEnd`
 * (specification) and `CountRuns` (the loop itself).
 */
module Connectivity {
  import opened Outcomes

  /** The point ids of one cell; the run that encodes it is `[|ids|] + ids`. */
  type Cell = seq<int>

  /** Concatenates the runs of the cells, in order. */
  function Encode(cells: seq<Cell>): (buf: seq<int>)
  {
    if cells == [] then [] else [|cells[0]|] + cells[0] + Encode(cells[1..])
  }

  /** Splits a flat buffer into its runs; fails when a count is negative or reads past the end. */
  function Decode(buf: seq<int>): (r: Result<seq<Cell>>)
    decreases |buf|
    ensures r.Err? ==> r.error == MalformedConnectivity
  {
    if buf == [] then Ok([])
    else if buf[0] < 0 || buf[0] >= |buf| then Err(MalformedConnectivity)
    else
      match Decode(buf[buf[0] + 1..])
      case Ok(rest) => Ok([buf[1..buf[0] + 1]] + rest)
      case Err(e) => Err(e)
  }

  /** Round trip: a buffer that decodes is the encoding of its runs. */
  lemma {:induction false} EncodeDecode(buf: seq<int>)
    requires Decode(buf).Ok?
    ensures Encode(Decode(buf).value) == buf
    decreases |buf|
  {
    if buf != [] {
      var h, tail := buf[1..buf[0] + 1], buf[buf[0] + 1..];
      EncodeDecode(tail);
      assert buf == [|h|] + h + tail;
      DecodeRun(h, tail);
      EncodeCons(h, Decode(tail).value);
    }
  }

  /** The encoding of a cell put in front of others. */
  lemma EncodeCons(h: Cell, rest: seq<Cell>)
    ensures Encode([h] + rest) == [|h|] + h + Encode(rest)
  {
    assert ([h] + rest)[0] == h && ([h] + rest)[1..] == rest;
  }

  /** Start position of each run when the cells are encoded from position `base`. */
  function Offsets(cells: seq<Cell>, base: int): (offs: seq<int>)
    ensures |offs| == |cells|
  {
    if cells == [] then [] else [base] + Offsets(cells[1..], base + |cells[0]| + 1)
  }

  lemma {:induction false} EncodeAppend(a: seq<Cell>, b: seq<Cell>)
    ensures Encode(a + b) == Encode(a) + Encode(b)
  {
    if a != [] {
      assert (a + b)[0] == a[0];
      assert (a + b)[1..] == a[1..] + b;
      EncodeAppend(a[1..], b);
    } else {
      assert a + b == b;
    }
  }

  /** Decoding a buffer that opens with the run of `h` takes `h` off the front. */
  lemma DecodeRun(h: Cell, rest: seq<int>)
    ensures Decode(rest).Ok? ==> Decode([|h|] + h + rest) == Ok([h] + Decode(rest).value)
    ensures Decode(rest).Err? ==> Decode([|h|] + h + rest) == Decode(rest)
  {
    var buf := [|h|] + h + rest;
    assert buf[0] == |h|;
    assert buf[1..|h| + 1] == h;
    assert buf[|h| + 1..] == rest;
  }

  /** The encoding of a non-empty run sequence, followed by `tail`, opens with the first run. */
  lemma EncodeFirst(cells: seq<Cell>, tail: seq<int>)
    requires cells != []
    ensures Encode(cells) + tail == [|cells[0]|] + cells[0] + (Encode(cells[1..]) + tail)
  {
  }

  /** Putting the first cell back in front of the others. */
  lemma ConsAppend(cells: seq<Cell>, rest: seq<Cell>)
    requires cells != []
    ensures [cells[0]] + (cells[1..] + rest) == cells + rest
  {
    assert cells == [cells[0]] + cells[1..];
  }

  /** Decoding a run sequence followed by a well-formed tail yields the runs, then the tail's runs. */
  lemma {:induction false} DecodeAppend(cells: seq<Cell>, tail: seq<int>)
    requires Decode(tail).Ok?
    ensures Decode(Encode(cells) + tail) == Ok(cells + Decode(tail).value)
    decreases |cells|
  {
    var rest := Decode(tail).value;
    if cells != [] {
      var h, t := cells[0], cells[1..];
      var after := Encode(t) + tail;
      DecodeAppend(t, tail);
      EncodeFirst(cells, tail);
      DecodeRun(h, after);
      ConsAppend(cells, rest);
    } else {
      assert Encode(cells) + tail == tail;
      assert cells + rest == rest;
    }
  }

  /** A run sequence followed by a malformed tail is malformed. */
  lemma {:induction false} DecodeAppendErr(cells: seq<Cell>, tail: seq<int>)
    requires Decode(tail).Err?
    ensures Decode(Encode(cells) + tail).Err?
  {
    if cells != [] {
      EncodeFirst(cells, tail);
      DecodeAppendErr(cells[1..], tail);
      DecodeRun(cells[0], Encode(cells[1..]) + tail);
    } else {
      assert Encode(cells) + tail == tail;
    }
  }

  /** Round trip: every sequence of cells decodes back from its encoding. */
  lemma DecodeEncode(cells: seq<Cell>)
    ensures Decode(Encode(cells)) == Ok(cells)
  {
    DecodeAppend(cells, []);
    assert Encode(cells) + [] == Encode(cells);
    assert cells + [] == cells;
  }

  /** Run `k` of the encoding starts at its offset: the count there, the ids right after it. */
  lemma {:induction false} RunAt(cells: seq<Cell>, base: int, k: nat)
    requires k < |cells|
    ensures var o := Offsets(cells, base)[k] - base;
      0 <= o && o + |cells[k]| < |Encode(cells)| &&
      Encode(cells)[o..o + 1 + |cells[k]|] == [|cells[k]|] + cells[k]
  {
    OffsetAt(cells, base, k);
    var before, at := Encode(cells[..k]), Encode(cells[k..]);
    assert cells == cells[..k] + cells[k..];
    EncodeAppend(cells[..k], cells[k..]);
    assert at == [|cells[k]|] + cells[k] + Encode(cells[k + 1..]) by {
      assert cells[k..][0] == cells[k] && cells[k..][1..] == cells[k + 1..];
    }
    assert Encode(cells)[|before|..|before| + 1 + |cells[k]|] == at[..1 + |cells[k]|];
  }

  /** Run `k` starts after the encodings of the runs before it. */
  lemma {:induction false} OffsetAt(cells: seq<Cell>, base: int, k: nat)
    requires k < |cells|
    ensures Offsets(cells, base)[k] == base + |Encode(cells[..k])|
    decreases k
  {
    if k > 0 {
      var h, base' := cells[0], base + |cells[0]| + 1;
      OffsetAt(cells[1..], base', k - 1);
      assert cells[..k] == [h] + cells[1..][..k - 1];
      assert cells[..k][1..] == cells[1..][..k - 1];
    }
  }

  /** Runs follow one another: each one ends before the next one's count. */
  lemma {:induction false} RunsOrdered(cells: seq<Cell>, base: int, k1: nat, k2: nat)
    requires k1 < k2 < |cells|
    ensures Offsets(cells, base)[k1] + |cells[k1]| < Offsets(cells, base)[k2]
    decreases k1
  {
    var base' := base + |cells[0]| + 1;
    assert Offsets(cells, base)[k2] == Offsets(cells[1..], base')[k2 - 1];
    if k1 == 0 {
      RunAt(cells[1..], base', k2 - 1);
    } else {
      RunsOrdered(cells[1..], base', k1 - 1, k2 - 1);
    }
  }

  /** Every position of the encoding lies in some run, between its count and its last id. */
  lemma {:induction false} RunCovering(cells: seq<Cell>, base: int, p: int)
    requires 0 <= p < |Encode(cells)|
    ensures exists k :: 0 <= k < |cells| && Offsets(cells, base)[k] - base <= p <= Offsets(cells, base)[k] - base + |cells[k]|
    decreases |cells|
  {
    var h := cells[0];
    var base' := base + |h| + 1;
    if p > |h| {
      RunCovering(cells[1..], base', p - |h| - 1);
      var k :| 0 <= k < |cells| - 1 &&
        Offsets(cells[1..], base')[k] - base' <= p - |h| - 1 <= Offsets(cells[1..], base')[k] - base' + |cells[1..][k]|;
      assert Offsets(cells, base)[k + 1] == Offsets(cells[1..], base')[k];
    } else {
      assert Offsets(cells, base)[0] == base;
    }
  }

  /** Offsets and encoded length depend only on the cells' lengths. */
  lemma {:induction false} OffsetsByLengths(a: seq<Cell>, b: seq<Cell>, base: int)
    requires |a| == |b| && forall k :: 0 <= k < |a| ==> |a[k]| == |b[k]|
    ensures Offsets(a, base) == Offsets(b, base) && |Encode(a)| == |Encode(b)|
    decreases |a|
  {
    if a != [] {
      OffsetsByLengths(a[1..], b[1..], base + |a[0]| + 1);
    }
  }

  // ---------------------------------------------------------------------------
  // The run-counting walk: `c = 0; n = 0; while c < size: c += buf[c] + 1; n += 1`

  /** True when the walk from cursor `c` reads only non-negative counts, so that it stops. */
  predicate Advances(buf: seq<int>, c: nat)
    decreases |buf| - c
  {
    c < |buf| ==> buf[c] >= 0 && Advances(buf, c + buf[c] + 1)
  }

  /** The cursor positions the walk visits from `c`, one per run it counts. */
  function Heads(buf: seq<int>, c: nat): (hs: seq<nat>)
    requires Advances(buf, c)
    decreases |buf| - c
    ensures forall i :: 0 <= i < |hs| ==> c <= hs[i] < |buf| && buf[hs[i]] >= 0
    ensures forall i, j :: 0 <= i < j < |hs| ==> hs[i] < hs[j]
  {
    if c >= |buf| then [] else [c] + Heads(buf, c + buf[c] + 1)
  }

  /** Where the cursor stops: the first position it reaches at or past the end. */
  function WalkEnd(buf: seq<int>, c: nat): (e: nat)
    requires Advances(buf, c)
    decreases |buf| - c
    ensures e >= c && e >= |buf|
  {
    if c >= |buf| then c else WalkEnd(buf, c + buf[c] + 1)
  }

  /** The loop of the `lines` and `faces` setters and of `_from_arrays`: returns the final cursor and the run count. */
  method CountRuns(buf: seq<int>) returns (c: nat, n: nat)
    requires Advances(buf, 0)
    ensures n == |Heads(buf, 0)|
    ensures c == WalkEnd(buf, 0)
  {
    c, n := 0, 0;
    while c < |buf|
      invariant Advances(buf, c)
      invariant n + |Heads(buf, c)| == |Heads(buf, 0)|
      invariant WalkEnd(buf, c) == WalkEnd(buf, 0)
      decreases |buf| - c
    {
      c := c + buf[c] + 1;
      n := n + 1;
    }
  }

  /** One step of the walk from a non-negative count. */
  lemma WalkStep(buf: seq<int>, c: nat)
    requires c < |buf| && buf[c] >= 0
    ensures Advances(buf, c) <==> Advances(buf, c + buf[c] + 1)
    ensures Advances(buf, c) ==>
      Heads(buf, c) == [c] + Heads(buf, c + buf[c] + 1) &&
      WalkEnd(buf, c) == WalkEnd(buf, c + buf[c] + 1)
  {
  }

  /** A slice of `buf` that holds encoded runs opens with the first run's count, then holds the others. */
  lemma EncodedSlice(buf: seq<int>, c: nat, cells: seq<Cell>)
    requires cells != [] && c + |Encode(cells)| <= |buf|
    requires buf[c..c + |Encode(cells)|] == Encode(cells)
    ensures buf[c] == |cells[0]|
    ensures var c' := c + |cells[0]| + 1;
      c' + |Encode(cells[1..])| == c + |Encode(cells)| &&
      buf[c'..c' + |Encode(cells[1..])|] == Encode(cells[1..])
  {
    var h, e, e' := cells[0], Encode(cells), Encode(cells[1..]);
    assert e == [|h|] + h + e';
    RunSplit(h, e');
    SubSlice(buf, c, |e|, |h| + 1);
    assert buf[c + |h| + 1..c + |e|] == e[|h| + 1..] == e';
  }

  /** A run followed by more ids: the count first, the rest after the run. */
  lemma RunSplit(h: Cell, more: seq<int>)
    ensures ([|h|] + h + more)[0] == |h| && ([|h|] + h + more)[|h| + 1..] == more
  {
  }

  /** A slice of a slice. */
  lemma SubSlice(buf: seq<int>, c: nat, n: nat, i: nat)
    requires c + n <= |buf| && 0 < i <= n
    ensures buf[c + i..c + n] == buf[c..c + n][i..] && buf[c] == buf[c..c + n][0]
  {
  }

  /** Putting one more head in front of a walk that splits into offsets and the rest. */
  lemma PrependHead(hs: seq<nat>, hs': seq<nat>, rest: seq<nat>, offs': seq<int>, offs: seq<int>, c: nat)
    requires hs == [c] + hs' && hs' == offs' + rest && offs == [c] + offs'
    ensures hs == offs + rest
  {
  }

  /** Walking across encoded runs visits exactly their starts and lands just after them. */
  lemma {:induction false} WalkAcross(buf: seq<int>, c: nat, cells: seq<Cell>)
    requires c + |Encode(cells)| <= |buf|
    requires buf[c..c + |Encode(cells)|] == Encode(cells)
    ensures Advances(buf, c) <==> Advances(buf, c + |Encode(cells)|)
    ensures Advances(buf, c) ==>
      Heads(buf, c) == Offsets(cells, c) + Heads(buf, c + |Encode(cells)|) &&
      WalkEnd(buf, c) == WalkEnd(buf, c + |Encode(cells)|)
    decreases |cells|
  {
    if cells != [] {
      var c', end := c + |cells[0]| + 1, c + |Encode(cells)|;
      EncodedSlice(buf, c, cells);
      WalkAcross(buf, c', cells[1..]);
      WalkStep(buf, c);
      assert c + buf[c] + 1 == c';
      assert c' + |Encode(cells[1..])| == end;
      if Advances(buf, c) {
        assert Offsets(cells, c) == [c] + Offsets(cells[1..], c');
        PrependHead(Heads(buf, c), Heads(buf, c'), Heads(buf, end), Offsets(cells[1..], c'), Offsets(cells, c), c);
      }
    } else if Advances(buf, c) {
      assert Offsets(cells, c) + Heads(buf, c) == Heads(buf, c);
    }
  }

  /** On a buffer that is exactly a sequence of runs the walk stops at its size, its
      cursor visiting every run start in order, and so counts every run. */
  lemma WalkOverEncoded(cells: seq<Cell>)
    ensures Advances(Encode(cells), 0)
    ensures Heads(Encode(cells), 0) == Offsets(cells, 0)
    ensures |Heads(Encode(cells), 0)| == |cells|
    ensures WalkEnd(Encode(cells), 0) == |Encode(cells)|
  {
    var buf := Encode(cells);
    assert buf[0..|buf|] == buf;
    WalkAcross(buf, 0, cells);
    assert Heads(buf, 0) == Offsets(cells, 0) + [];
  }

  /** A walk that stops exactly at the end has read a well-formed buffer. */
  lemma {:induction false} TiledFrom(buf: seq<int>, c: nat)
    requires c <= |buf|
    requires Advances(buf, c) && WalkEnd(buf, c) == |buf|
    ensures Decode(buf[c..]).Ok?
    ensures |Decode(buf[c..]).value| == |Heads(buf, c)|
    decreases |buf| - c
  {
    if c < |buf| {
      var k := buf[c];
      var c' := c + k + 1;
      assert WalkEnd(buf, c) == WalkEnd(buf, c');
      TiledFrom(buf, c');
      var s := buf[c..];
      assert s[0] == k && k < |s|;
      assert s[k + 1..] == buf[c'..];
    } else {
      assert buf[c..] == [];
    }
  }

  /** The runs tile the buffer exactly if and only if the walk reads non-negative counts
      and its cursor ends exactly at the buffer's size; the count is then the number of runs. */
  lemma WalkEndsAtSizeIffTiled(buf: seq<int>)
    ensures Decode(buf).Ok? <==> Advances(buf, 0) && WalkEnd(buf, 0) == |buf|
    ensures Decode(buf).Ok? ==> |Heads(buf, 0)| == |Decode(buf).value|
  {
    if Decode(buf).Ok? {
      EncodeDecode(buf);
      WalkOverEncoded(Decode(buf).value);
    }
    if Advances(buf, 0) && WalkEnd(buf, 0) == |buf| {
      TiledFrom(buf, 0);
      assert buf[0..] == buf;
    }
  }

  /** A last run that declares more ids than remain is still counted, and the walk
      stops past the end without any error, although the buffer does not decode. */
  lemma WalkCountsOvershootingRun(cells: seq<Cell>, tail: seq<int>)
    requires tail != [] && tail[0] >= |tail|
    ensures Advances(Encode(cells) + tail, 0)
    ensures |Heads(Encode(cells) + tail, 0)| == |cells| + 1
    ensures WalkEnd(Encode(cells) + tail, 0) == |Encode(cells)| + tail[0] + 1 > |Encode(cells) + tail|
    ensures Decode(Encode(cells) + tail) == Err(MalformedConnectivity)
  {
    var buf := Encode(cells) + tail;
    var m := |Encode(cells)|;
    assert buf[0..m] == Encode(cells);
    assert buf[m] == tail[0];
    WalkAcross(buf, 0, cells);
    assert Heads(buf, m) == [m];
    DecodeAppendErr(cells, tail);
  }

  // ---------------------------------------------------------------------------
  // `_make_vertice_cells`

  /** Concatenation of rows in row-major order (numpy's reshape to one dimension). */
  function Flatten(rows: seq<seq<int>>): (flat: seq<int>)
  {
    if rows == [] then [] else rows[0] + Flatten(rows[1..])
  }

  lemma {:induction false} FlattenSnoc(rows: seq<seq<int>>, row: seq<int>)
    ensures Flatten(rows + [row]) == Flatten(rows) + row
  {
    if rows != [] {
      assert (rows + [row])[1..] == rows[1..] + [row];
      FlattenSnoc(rows[1..], row);
    } else {
      assert rows + [row] == [row];
    }
  }

  /** `_make_vertice_cells(n)`: the columns `1` and `arange(n)` stacked side by side, then flattened. */
  function VertexCells(n: nat): (buf: seq<int>)
  {
    Flatten(seq(n, i => [1, i]))
  }

  /** The vertex-cell buffer holds one single-point run per point, point `i` in run `i`. */
  lemma {:induction false} VertexCellsAreSinglePointRuns(n: nat)
    ensures VertexCells(n) == Encode(seq(n, i => [i]))
  {
    if n > 0 {
      VertexCellsAreSinglePointRuns(n - 1);
      var rows := seq(n - 1, i => [1, i]);
      var cells := seq(n - 1, i => [i]);
      assert seq(n, i => [1, i]) == rows + [[1, n - 1]];
      assert seq(n, i => [i]) == cells + [[n - 1]];
      FlattenSnoc(rows, [1, n - 1]);
      EncodeAppend(cells, [[n - 1]]);
      assert Encode([[n - 1]]) == [1, n - 1];
    } else {
      assert seq(n, i => [1, i]) == [];
      assert seq(n, i => [i]) == [];
    }
  }

  /** Layout of `_make_vertice_cells(n)`: length `2n`, entry `2i` is 1 and entry `2i+1` is `i`. */
  lemma VertexCellsLayout(n: nat)
    ensures |VertexCells(n)| == 2 * n
    ensures forall p :: 0 <= p < 2 * n ==> VertexCells(n)[p] == if p % 2 == 0 then 1 else p / 2
  {
    VertexCellsAreSinglePointRuns(n);
    EncodeSingles(n);
  }

  lemma {:induction false} EncodeSingles(n: nat)
    ensures |Encode(seq(n, i => [i]))| == 2 * n
    ensures forall p :: 0 <= p < 2 * n ==> Encode(seq(n, i => [i]))[p] == if p % 2 == 0 then 1 else p / 2
  {
    if n > 0 {
      EncodeSingles(n - 1);
      var cells := seq(n - 1, i => [i]);
      assert seq(n, i => [i]) == cells + [[n - 1]];
      EncodeAppend(cells, [[n - 1]]);
      assert Encode([[n - 1]]) == [1, n - 1];
    } else {
      assert seq(n, i => [i]) == [];
    }
  }

  /** Walking the vertex-cell buffer counts exactly `n` runs and stops at `2n`; run `i`
      references point `i` only. */
  lemma VertexCellsWalk(n: nat)
    ensures Advances(VertexCells(n), 0)
    ensures |Heads(VertexCells(n), 0)| == n
    ensures WalkEnd(VertexCells(n), 0) == 2 * n
    ensures Decode(VertexCells(n)) == Ok(seq(n, i => [i]))
  {
    VertexCellsAreSinglePointRuns(n);
    EncodeSingles(n);
    WalkOverEncoded(seq(n, i => [i]));
    DecodeEncode(seq(n, i => [i]));
  }

  // ---------------------------------------------------------------------------
  // `is_all_triangles`

  /** `faces.size % 4 == 0` and column 0 of `faces.reshape(-1, 4)` is all 3. */
  predicate AllTriangles(buf: seq<int>)
  {
    |buf| % 4 == 0 && forall p :: 0 <= p < |buf| && p % 4 == 0 ==> buf[p] == 3
  }

  lemma AllTrianglesUncons(buf: seq<int>)
    requires buf != [] && AllTriangles(buf)
    ensures |buf| >= 4 && buf[0] == 3 && AllTriangles(buf[4..])
  {
    var rest := buf[4..];
    forall p | 0 <= p < |rest| && p % 4 == 0 ensures rest[p] == 3 {
      assert rest[p] == buf[p + 4];
    }
  }

  lemma AllTrianglesCons(buf: seq<int>)
    requires |buf| >= 4 && buf[0] == 3 && AllTriangles(buf[4..])
    ensures AllTriangles(buf)
  {
    forall p | 0 <= p < |buf| && p % 4 == 0 ensures buf[p] == 3 {
      if p >= 4 {
        assert buf[p] == buf[4..][p - 4];
      }
    }
  }

  /** Decoding a buffer whose first count is 3 takes four entries for the first triangle. */
  lemma DecodeTriangleHead(buf: seq<int>)
    requires |buf| >= 4 && buf[0] == 3
    ensures Decode(buf) ==
      match Decode(buf[4..])
      case Ok(rest) => Ok([buf[1..4]] + rest)
      case Err(e) => Err(e)
  {
  }

  lemma {:induction false} AllTrianglesDecode(buf: seq<int>)
    requires AllTriangles(buf)
    ensures Decode(buf).Ok? && forall c :: c in Decode(buf).value ==> |c| == 3
    decreases |buf|
  {
    if buf != [] {
      AllTrianglesUncons(buf);
      AllTrianglesDecode(buf[4..]);
      DecodeTriangleHead(buf);
    }
  }

  lemma {:induction false} TriangleRunsAllTriangles(buf: seq<int>)
    requires Decode(buf).Ok? && forall c :: c in Decode(buf).value ==> |c| == 3
    ensures AllTriangles(buf)
    decreases |buf|
  {
    if buf != [] {
      var cells := Decode(buf).value;
      assert buf[0] >= 0 && buf[0] < |buf|;
      assert cells[0] == buf[1..buf[0] + 1];
      assert cells[0] in cells;
      assert buf[0] == 3;
      DecodeTriangleHead(buf);
      assert Decode(buf[4..]).value == cells[1..];
      forall c | c in cells[1..] ensures |c| == 3 {
        assert c in cells;
      }
      TriangleRunsAllTriangles(buf[4..]);
      AllTrianglesCons(buf);
    }
  }

  /** `is_all_triangles` holds exactly of the buffers that decode into triangle runs only. */
  lemma AllTrianglesIffTriangleRuns(buf: seq<int>)
    ensures AllTriangles(buf) <==>
      Decode(buf).Ok? && forall c :: c in Decode(buf).value ==> |c| == 3
  {
    if AllTriangles(buf) {
      AllTrianglesDecode(buf);
    }
    if Decode(buf).Ok? && forall c :: c in Decode(buf).value ==> |c| == 3 {
      TriangleRunsAllTriangles(buf);
    }
  }

  // ---------------------------------------------------------------------------
  // The id arrays the setters receive

  /** An id array: one-dimensional, or two-dimensional with one row per cell
      (`data` then holds the rows flattened row-major, as `ravel()` gives them). */
  datatype IdArray =
    | Flat(data: seq<int>)
    | Matrix(nrows: nat, ncols: nat, data: seq<int>)

  /** A 2-D array holds as many entries as its shape says, as every numpy array does. */
  predicate WellShaped(a: IdArray)
  {
    a.Matrix? ==> |a.data| == a.nrows * a.ncols
  }

  /** `a` is a numpy array and counting its cells terminates: a 1-D buffer by the walk,
      a 2-D array by its shape. */
  predicate Countable(a: IdArray)
  {
    WellShaped(a) && (a.Flat? ==> Advances(a.data, 0))
  }

  /** The cell count that the setters pass to `SetCells`. */
  function CellCount(a: IdArray): (n: nat)
    requires Countable(a)
  {
    if a.Flat? then |Heads(a.data, 0)| else a.nrows
  }

  /** The verts-or-polys choice: a 2-D array of exactly two columns, or an explicit request. */
  predicate ToVerts(a: IdArray, verts: bool)
  {
    (a.Matrix? && a.ncols == 2) || verts
  }

  /** A 1-D buffer never goes to verts unless asked, and a 2-D array of two columns always does. */
  lemma VertsChoice(a: IdArray)
    ensures a.Flat? ==> !ToVerts(a, false)
    ensures a.Matrix? && a.ncols != 2 ==> !ToVerts(a, false)
    ensures a.Matrix? && a.ncols == 2 ==> ToVerts(a, false)
    ensures ToVerts(a, true)
  {
  }

  /** A well-formed 1-D buffer is counted as many cells as it has runs. */
  lemma CellCountOfRuns(cells: seq<Cell>)
    ensures Countable(Flat(Encode(cells)))
    ensures CellCount(Flat(Encode(cells))) == |cells|
  {
    WalkOverEncoded(cells);
  }
}

=== FILE: linear_copy.dfy ===
/**
 * `UnstructuredGrid.linear_copy`: relabel the quadratic cell types in a copied type array,
 * then, in a copied cells buffer, overwrite the trailing slots of every cell that was a
 * quadratic quad or a quadratic triangle with the cell's first point id.
 *
 * The numpy operations the code uses are modelled one by one: `ts == tag` (`Mask`),
 * `xs[mask]` (`Select`), `buf[idx]` (`Gather`), `buf[idx] = vals` (`Scatter`), with numpy's
 * index rules (an index `i` into `n` entries is accepted when `-n <= i < n`).
 */
module LinearCopyModel {
  import opened Outcomes
  import opened CellTypes
  import opened Connectivity

  // ---------------------------------------------------------------------------
  // numpy indexing

  /** numpy accepts the index `i` into `n` entries. */
  predicate InRange(i: int, n: nat)
  {
    -(n as int) <= i < n
  }

  /** The entry an accepted index designates: a negative index counts from the end. */
  function Norm(i: int, n: nat): (k: nat)
    requires InRange(i, n)
    ensures k < n && (0 <= i ==> k == i)
  {
    if i < 0 then i + n else i
  }

  predicate AllInRange(idx: seq<int>, n: nat)
  {
    forall k :: 0 <= k < |idx| ==> InRange(idx[k], n)
  }

  /** `ts == tag`. */
  function Mask(ts: seq<int>, tag: int): (m: seq<bool>)
    ensures |m| == |ts|
  {
    seq(|ts|, k requires 0 <= k < |ts| => ts[k] == tag)
  }

  /** `xs[m]` for a boolean mask `m`: the entries whose mask is true, in order. */
  function Select(xs: seq<int>, m: seq<bool>): (sel: seq<int>)
    requires |xs| == |m|
    ensures |sel| <= |xs|
  {
    if xs == [] then [] else (if m[0] then [xs[0]] else []) + Select(xs[1..], m[1..])
  }

  /** `xs + d`. */
  function Shift(xs: seq<int>, d: int): (ys: seq<int>)
    ensures |ys| == |xs|
  {
    seq(|xs|, k requires 0 <= k < |xs| => xs[k] + d)
  }

  /** `buf[idx]`: a new array of the designated entries. */
  function Gather(buf: seq<int>, idx: seq<int>): (vals: seq<int>)
    requires AllInRange(idx, |buf|)
    ensures |vals| == |idx|
  {
    seq(|idx|, k requires 0 <= k < |idx| => buf[Norm(idx[k], |buf|)])
  }

  /** `buf[idx] = vals`; the writes are taken in index order, so a repeated index keeps its last value. */
  function Scatter(buf: seq<int>, idx: seq<int>, vals: seq<int>): (r: seq<int>)
    requires |idx| == |vals| && AllInRange(idx, |buf|)
    ensures |r| == |buf|
    decreases |idx|
  {
    if idx == [] then buf
    else Scatter(buf[Norm(idx[0], |buf|) := vals[0]], idx[1..], vals[1..])
  }

  /** `s` with every `from` replaced by `to` (`s[s == from] = to`). */
  function Replace(s: seq<int>, from: int, to: int): (r: seq<int>)
    ensures |r| == |s|
  {
    seq(|s|, k requires 0 <= k < |s| => if s[k] == from then to else s[k])
  }

  /** `ct[ct == from] = to`, on the array itself. */
  method ReplaceInPlace(ct: array<int>, from: int, to: int)
    modifies ct
    ensures ct[..] == Replace(old(ct[..]), from, to)
  {
    var k := 0;
    while k < ct.Length
      invariant 0 <= k <= ct.Length
      invariant forall i :: 0 <= i < k ==> ct[i] == if old(ct[i]) == from then to else old(ct[i])
      invariant forall i :: k <= i < ct.Length ==> ct[i] == old(ct[i])
    {
      if ct[k] == from {
        ct[k] := to;
      }
      k := k + 1;
    }
  }

  /** `a[idx] = vals`, on the array itself. */
  method ScatterInPlace(a: array<int>, idx: seq<int>, vals: seq<int>)
    requires |idx| == |vals| && AllInRange(idx, a.Length)
    modifies a
    ensures a[..] == Scatter(old(a[..]), idx, vals)
  {
    var k := 0;
    while k < |idx|
      invariant 0 <= k <= |idx|
      invariant Scatter(a[..], idx[k..], vals[k..]) == Scatter(old(a[..]), idx, vals)
    {
      ghost var before := a[..];
      assert idx[k..][1..] == idx[k + 1..] && vals[k..][1..] == vals[k + 1..];
      a[Norm(idx[k], a.Length)] := vals[k];
      assert a[..] == before[Norm(idx[k], a.Length) := vals[k]];
      k := k + 1;
    }
    assert idx[k..] == [] && vals[k..] == [];
  }

  // ---------------------------------------------------------------------------
  // The patch

  /** Every slot `o + lo` … `o + hi` of every selected offset `o` is an accepted index. */
  predicate SlotsInRange(sel: seq<int>, lo: int, hi: int, n: nat)
  {
    lo <= hi ==> forall m :: 0 <= m < |sel| ==> -(n as int) <= sel[m] + lo && sel[m] + hi < n
  }

  lemma SlotInRange(sel: seq<int>, lo: int, hi: int, n: nat, j: int)
    requires SlotsInRange(sel, lo, hi, n) && lo <= j <= hi
    ensures AllInRange(Shift(sel, j), n)
  {
  }

  /** The writes `buf[sel + j] = anchors` for the slot positions `j` … `last`, one after another. */
  function WriteSlots(buf: seq<int>, sel: seq<int>, anchors: seq<int>, j: int, last: int): (r: seq<int>)
    requires |anchors| == |sel| && SlotsInRange(sel, j, last, |buf|)
    ensures |r| == |buf|
    decreases last - j
  {
    if j > last then buf
    else
      SlotInRange(sel, j, last, |buf|, j);
      WriteSlots(Scatter(buf, Shift(sel, j), anchors), sel, anchors, j + 1, last)
  }

  /** One patch: read `base_point = cells[sel + 1]`, then write it to slots `first` … `last`. */
  function PatchSlots(buf: seq<int>, sel: seq<int>, first: int, last: int): (r: seq<int>)
    requires 1 <= first <= last && SlotsInRange(sel, 1, last, |buf|)
    ensures |r| == |buf|
  {
    SlotInRange(sel, 1, last, |buf|, 1);
    WriteSlots(buf, sel, Gather(buf, Shift(sel, 1)), first, last)
  }

  /** `offs[mask]` has as many entries as `mask` (numpy raises IndexError otherwise), and the
      slots `1` … `last` of every selected cell are inside a buffer of `n` entries. */
  predicate StepInRange(n: nat, offs: seq<int>, mask: seq<bool>, last: int)
  {
    |offs| == |mask| && SlotsInRange(Select(offs, mask), 1, last, n)
  }

  /** `if np.any(mask)`: patch slots `first` … `last` of the masked cells, else leave the buffer alone. */
  function Step(buf: seq<int>, offs: seq<int>, mask: seq<bool>, first: int, last: int): (r: seq<int>)
    requires 1 <= first <= last && (true in mask ==> StepInRange(|buf|, offs, mask, last))
    ensures |r| == |buf|
  {
    if true in mask then PatchSlots(buf, Select(offs, mask), first, last) else buf
  }

  /** Neither patch of `linear_copy` leaves the cells buffer. */
  predicate PatchesInRange(n: nat, offs: seq<int>, ts: seq<int>)
  {
    (true in Mask(ts, VTK_QUADRATIC_QUAD) ==> StepInRange(n, offs, Mask(ts, VTK_QUADRATIC_QUAD), 8)) &&
    (true in Mask(ts, VTK_QUADRATIC_TRIANGLE) ==> StepInRange(n, offs, Mask(ts, VTK_QUADRATIC_TRIANGLE), 6))
  }

  /** The cells buffer of the copy: quadratic quads get slots 5 to 8 patched, then
      quadratic triangles slots 4 to 6. */
  function LinearCells(buf: seq<int>, offs: seq<int>, ts: seq<int>): (r: seq<int>)
    requires PatchesInRange(|buf|, offs, ts)
    ensures |r| == |buf|
  {
    var quads := Step(buf, offs, Mask(ts, VTK_QUADRATIC_QUAD), 5, 8);
    Step(quads, offs, Mask(ts, VTK_QUADRATIC_TRIANGLE), 4, 6)
  }

  /** The type array of the copy. */
  function LinearTypes(ts: seq<int>): (r: seq<int>)
    ensures |r| == |ts|
  {
    seq(|ts|, k requires 0 <= k < |ts| => LinearTag(ts[k]))
  }

  // ---------------------------------------------------------------------------
  // The grid

  class UnstructuredGrid {
    var celltypes: array<int>
    var offset: array<int>
    var cells: array<int>

    /** `SetCells(cell_type, offset, cells)`: the grid keeps the very arrays it is given. */
    constructor (celltypes: array<int>, offset: array<int>, cells: array<int>)
      ensures this.celltypes == celltypes && this.offset == offset && this.cells == cells
    {
      this.celltypes, this.offset, this.cells := celltypes, offset, cells;
    }

    /** `linear_copy`: a new grid with fresh copies of the type array and the cells buffer,
        two distinct arrays, sharing this grid's offset array; the source grid is left as it was. */
    method LinearCopy() returns (r: Result<UnstructuredGrid>)
      ensures r.Err? <==> !PatchesInRange(cells.Length, offset[..], celltypes[..])
      ensures r.Err? ==> r.error == IndexError
      ensures r.Ok? ==>
        fresh(r.value) && fresh(r.value.celltypes) && fresh(r.value.cells) &&
        r.value.celltypes != r.value.cells &&
        r.value.offset == offset &&
        r.value.celltypes[..] == LinearTypes(celltypes[..]) &&
        r.value.cells[..] == LinearCells(cells[..], offset[..], celltypes[..])
    {
      var ct, quadMask, triMask := CopyLinearTypes(celltypes);
      var cs := new int[cells.Length];
      forall k | 0 <= k < cs.Length {
        cs[k] := cells[k];
      }
      ghost var types, offs, buf := celltypes[..], offset[..], cs[..];
      assert buf == cells[..];
      assert quadMask == Mask(types, VTK_QUADRATIC_QUAD) && triMask == Mask(types, VTK_QUADRATIC_TRIANGLE);
      var lgrid := new UnstructuredGrid(ct, offset, cs);
      var ok := PatchQuads(cs, offset[..], quadMask);
      if !ok {
        assert !PatchesInRange(|buf|, offs, types);
        return Err(IndexError);
      }
      ok := PatchTriangles(cs, offset[..], triMask);
      if !ok {
        assert !PatchesInRange(|buf|, offs, types);
        return Err(IndexError);
      }
      assert PatchesInRange(|buf|, offs, types);
      assert cs[..] == LinearCells(buf, offs, types);
      r := Ok(lgrid);
    }
  }

  /** The type half of `linear_copy`: a fresh copy of the types with the six masked
      assignments made in order, and the quad and triangle masks taken along the way. */
  method CopyLinearTypes(src: array<int>) returns (ct: array<int>, quadMask: seq<bool>, triMask: seq<bool>)
    ensures fresh(ct)
    ensures ct[..] == LinearTypes(src[..])
    ensures quadMask == Mask(src[..], VTK_QUADRATIC_QUAD) && triMask == Mask(src[..], VTK_QUADRATIC_TRIANGLE)
  {
    ct := new int[src.Length];
    forall k | 0 <= k < ct.Length {
      ct[k] := src[k];
    }
    ghost var types := ct[..];
    ReplaceInPlace(ct, VTK_QUADRATIC_TETRA, VTK_TETRA);
    ReplaceInPlace(ct, VTK_QUADRATIC_PYRAMID, VTK_PYRAMID);
    ReplaceInPlace(ct, VTK_QUADRATIC_WEDGE, VTK_WEDGE);
    ReplaceInPlace(ct, VTK_QUADRATIC_HEXAHEDRON, VTK_HEXAHEDRON);
    quadMask := Mask(ct[..], VTK_QUADRATIC_QUAD);
    ReplaceInPlace(ct, VTK_QUADRATIC_QUAD, VTK_QUAD);
    triMask := Mask(ct[..], VTK_QUADRATIC_TRIANGLE);
    ReplaceInPlace(ct, VTK_QUADRATIC_TRIANGLE, VTK_TRIANGLE);
    RelabelSteps(types);
  }

  /** The quad half of the patch: `quad_offset = offset[mask]`, `base_point = cells[quad_offset + 1]`,
      then `cells[quad_offset + 5]` … `cells[quad_offset + 8] = base_point`; false where numpy
      raises IndexError. */
  method PatchQuads(cs: array<int>, offs: seq<int>, mask: seq<bool>) returns (ok: bool)
    modifies cs
    ensures ok <==> (true in mask ==> StepInRange(cs.Length, offs, mask, 8))
    ensures ok ==> cs[..] == Step(old(cs[..]), offs, mask, 5, 8)
  {
    if !(true in mask) {
      return true;
    }
    if !StepInRange(cs.Length, offs, mask, 8) {
      return false;
    }
    var sel := Select(offs, mask);
    SlotInRange(sel, 1, 8, cs.Length, 1);
    var anchors := Gather(cs[..], Shift(sel, 1));
    ghost var b0 := cs[..];
    SlotInRange(sel, 1, 8, cs.Length, 5);
    ScatterInPlace(cs, Shift(sel, 5), anchors);
    ghost var b1 := cs[..];
    SlotInRange(sel, 1, 8, cs.Length, 6);
    ScatterInPlace(cs, Shift(sel, 6), anchors);
    ghost var b2 := cs[..];
    SlotInRange(sel, 1, 8, cs.Length, 7);
    ScatterInPlace(cs, Shift(sel, 7), anchors);
    ghost var b3 := cs[..];
    SlotInRange(sel, 1, 8, cs.Length, 8);
    ScatterInPlace(cs, Shift(sel, 8), anchors);
    assert WriteSlots(b3, sel, anchors, 8, 8) == cs[..];
    assert WriteSlots(b2, sel, anchors, 7, 8) == cs[..];
    assert WriteSlots(b1, sel, anchors, 6, 8) == cs[..];
    assert WriteSlots(b0, sel, anchors, 5, 8) == cs[..];
    ok := true;
  }

  /** The triangle half: `tri_offset = offset[mask]`, `base_point = cells[tri_offset + 1]`,
      then `cells[tri_offset + 4]` … `cells[tri_offset + 6] = base_point`. */
  method PatchTriangles(cs: array<int>, offs: seq<int>, mask: seq<bool>) returns (ok: bool)
    modifies cs
    ensures ok <==> (true in mask ==> StepInRange(cs.Length, offs, mask, 6))
    ensures ok ==> cs[..] == Step(old(cs[..]), offs, mask, 4, 6)
  {
    if !(true in mask) {
      return true;
    }
    if !StepInRange(cs.Length, offs, mask, 6) {
      return false;
    }
    var sel := Select(offs, mask);
    SlotInRange(sel, 1, 6, cs.Length, 1);
    var anchors := Gather(cs[..], Shift(sel, 1));
    ghost var b0 := cs[..];
    SlotInRange(sel, 1, 6, cs.Length, 4);
    ScatterInPlace(cs, Shift(sel, 4), anchors);
    ghost var b1 := cs[..];
    SlotInRange(sel, 1, 6, cs.Length, 5);
    ScatterInPlace(cs, Shift(sel, 5), anchors);
    ghost var b2 := cs[..];
    SlotInRange(sel, 1, 6, cs.Length, 6);
    ScatterInPlace(cs, Shift(sel, 6), anchors);
    assert WriteSlots(b2, sel, anchors, 6, 6) == cs[..];
    assert WriteSlots(b1, sel, anchors, 5, 6) == cs[..];
    assert WriteSlots(b0, sel, anchors, 4, 6) == cs[..];
    ok := true;
  }

  /** The six masked assignments, in the order `linear_copy` makes them, relabel every tag as
      `LinearTag` does; the quad mask taken after the first four and the triangle mask taken
      after the fifth are the masks of the original tags. */
  lemma RelabelSteps(s: seq<int>)
    ensures
      var s4 := Replace(Replace(Replace(Replace(s,
                  VTK_QUADRATIC_TETRA, VTK_TETRA), VTK_QUADRATIC_PYRAMID, VTK_PYRAMID),
                  VTK_QUADRATIC_WEDGE, VTK_WEDGE), VTK_QUADRATIC_HEXAHEDRON, VTK_HEXAHEDRON);
      var s5 := Replace(s4, VTK_QUADRATIC_QUAD, VTK_QUAD);
      Mask(s4, VTK_QUADRATIC_QUAD) == Mask(s, VTK_QUADRATIC_QUAD) &&
      Mask(s5, VTK_QUADRATIC_TRIANGLE) == Mask(s, VTK_QUADRATIC_TRIANGLE) &&
      Replace(s5, VTK_QUADRATIC_TRIANGLE, VTK_TRIANGLE) == LinearTypes(s)
  {
  }

  // ---------------------------------------------------------------------------
  // Where the writes land

  /** A write with `idx` that designates `p` nowhere leaves `p` alone. */
  lemma {:induction false} ScatterMiss(buf: seq<int>, idx: seq<int>, vals: seq<int>, p: int)
    requires |idx| == |vals| && AllInRange(idx, |buf|) && 0 <= p < |buf|
    requires forall m :: 0 <= m < |idx| ==> Norm(idx[m], |buf|) != p
    ensures Scatter(buf, idx, vals)[p] == buf[p]
    decreases |idx|
  {
    if idx != [] {
      var next := buf[Norm(idx[0], |buf|) := vals[0]];
      assert forall m :: 0 <= m < |idx| - 1 ==> idx[1..][m] == idx[m + 1];
      ScatterMiss(next, idx[1..], vals[1..], p);
    }
  }

  /** An entry designated by one index only ends up holding that index's value. */
  lemma {:induction false} ScatterHit(buf: seq<int>, idx: seq<int>, vals: seq<int>, m: nat)
    requires |idx| == |vals| && AllInRange(idx, |buf|) && m < |idx|
    requires forall m' :: 0 <= m' < |idx| && m' != m ==> Norm(idx[m'], |buf|) != Norm(idx[m], |buf|)
    ensures Scatter(buf, idx, vals)[Norm(idx[m], |buf|)] == vals[m]
    decreases |idx|
  {
    var next := buf[Norm(idx[0], |buf|) := vals[0]];
    assert forall j :: 0 <= j < |idx| - 1 ==> idx[1..][j] == idx[j + 1];
    if m == 0 {
      ScatterMiss(next, idx[1..], vals[1..], Norm(idx[0], |buf|));
    } else {
      ScatterHit(next, idx[1..], vals[1..], m - 1);
    }
  }

  /** The selected offsets lie inside a buffer of `n` entries, each followed by `last`
      slots, in increasing order with no two such stretches overlapping. */
  predicate Separated(sel: seq<int>, last: int, n: nat)
  {
    (forall m :: 0 <= m < |sel| ==> 0 <= sel[m] && sel[m] + last < n) &&
    (forall m1, m2 :: 0 <= m1 < m2 < |sel| ==> sel[m1] + last < sel[m2])
  }

  /** Slots `j` … `last` of separated offsets that do not cover `p` leave `p` alone. */
  lemma {:induction false} WriteSlotsMiss(buf: seq<int>, sel: seq<int>, anchors: seq<int>, j: int, last: int, p: int)
    requires 0 <= j && |anchors| == |sel| && Separated(sel, last, |buf|) && 0 <= p < |buf|
    requires forall m :: 0 <= m < |sel| ==> !(sel[m] + j <= p <= sel[m] + last)
    ensures WriteSlots(buf, sel, anchors, j, last)[p] == buf[p]
    decreases last - j
  {
    if j <= last {
      var idx := Shift(sel, j);
      SlotInRange(sel, j, last, |buf|, j);
      var next := Scatter(buf, idx, anchors);
      ScatterMiss(buf, idx, anchors, p);
      WriteSlotsMiss(next, sel, anchors, j + 1, last, p);
    }
  }

  /** Slot `j` of the `m`-th separated offset is slot `j` of no other offset, and no later slot of any. */
  lemma SeparatedSlots(sel: seq<int>, last: int, n: nat, j: int, m: nat)
    requires 0 <= j <= last && Separated(sel, last, n) && m < |sel|
    ensures AllInRange(Shift(sel, j), n) && Norm(Shift(sel, j)[m], n) == sel[m] + j
    ensures forall m' :: 0 <= m' < |sel| && m' != m ==> Norm(Shift(sel, j)[m'], n) != sel[m] + j
    ensures forall m' :: 0 <= m' < |sel| ==> !(sel[m'] + j + 1 <= sel[m] + j <= sel[m'] + last)
  {
    forall m' | 0 <= m' < |sel| && m' != m
      ensures Norm(Shift(sel, j)[m'], n) != sel[m] + j
    {
      if m' < m {
        assert sel[m'] + last < sel[m];
      } else {
        assert sel[m] + last < sel[m'];
      }
    }
  }

  /** Slot `i` of the `m`-th selected offset ends up holding the `m`-th anchor. */
  lemma {:induction false} WriteSlotsHit(buf: seq<int>, sel: seq<int>, anchors: seq<int>, j: int, last: int, m: nat, i: int)
    requires 0 <= j <= i <= last && |anchors| == |sel| && Separated(sel, last, |buf|) && m < |sel|
    ensures WriteSlots(buf, sel, anchors, j, last)[sel[m] + i] == anchors[m]
    decreases last - j
  {
    var idx := Shift(sel, j);
    SlotInRange(sel, j, last, |buf|, j);
    var next := Scatter(buf, idx, anchors);
    if i == j {
      SeparatedSlots(sel, last, |buf|, j, m);
      ScatterHit(buf, idx, anchors, m);
      WriteSlotsMiss(next, sel, anchors, j + 1, last, sel[m] + i);
    } else {
      WriteSlotsHit(next, sel, anchors, j + 1, last, m, i);
    }
  }

  /** Every selected entry is an entry whose mask is true... */
  lemma {:induction false} SelectFrom(xs: seq<int>, mask: seq<bool>, i: nat)
    requires |xs| == |mask| && i < |Select(xs, mask)|
    ensures exists k :: 0 <= k < |xs| && mask[k] && xs[k] == Select(xs, mask)[i]
    decreases |xs|
  {
    var rest := Select(xs[1..], mask[1..]);
    if mask[0] && i == 0 {
      assert xs[0] == Select(xs, mask)[0];
    } else {
      var i' := if mask[0] then i - 1 else i;
      assert Select(xs, mask)[i] == rest[i'];
      SelectFrom(xs[1..], mask[1..], i');
      var k :| 0 <= k < |xs| - 1 && mask[1..][k] && xs[1..][k] == rest[i'];
      assert mask[k + 1] && xs[k + 1] == Select(xs, mask)[i];
    }
  }

  /** ... and every entry whose mask is true is selected. */
  lemma {:induction false} SelectHit(xs: seq<int>, mask: seq<bool>, k: nat)
    requires |xs| == |mask| && k < |xs| && mask[k]
    ensures exists i :: 0 <= i < |Select(xs, mask)| && Select(xs, mask)[i] == xs[k]
    decreases |xs|
  {
    var rest := Select(xs[1..], mask[1..]);
    if k == 0 {
      assert Select(xs, mask)[0] == xs[0];
    } else {
      SelectHit(xs[1..], mask[1..], k - 1);
      var i :| 0 <= i < |rest| && rest[i] == xs[1..][k - 1];
      var head := if mask[0] then 1 else 0;
      assert Select(xs, mask)[i + head] == xs[k];
    }
  }

  /** Offsets that are in range and ordered in the whole array are so among the selected ones. */
  lemma {:induction false} SelectSeparated(offs: seq<int>, mask: seq<bool>, last: int, n: nat)
    requires |offs| == |mask|
    requires forall k :: 0 <= k < |offs| && mask[k] ==> 0 <= offs[k] && offs[k] + last < n
    requires forall k1, k2 :: 0 <= k1 < k2 < |offs| && mask[k1] && mask[k2] ==> offs[k1] + last < offs[k2]
    ensures Separated(Select(offs, mask), last, n)
    decreases |offs|
  {
    if offs != [] {
      var rest := Select(offs[1..], mask[1..]);
      SelectSeparated(offs[1..], mask[1..], last, n);
      var sel := Select(offs, mask);
      forall m | 0 <= m < |sel|
        ensures 0 <= sel[m] && sel[m] + last < n
      {
        SelectFrom(offs, mask, m);
      }
      if mask[0] {
        forall m1, m2 | 0 <= m1 < m2 < |sel|
          ensures sel[m1] + last < sel[m2]
        {
          if m1 > 0 {
            assert sel[m1] == rest[m1 - 1] && sel[m2] == rest[m2 - 1];
          } else {
            SelectFrom(offs[1..], mask[1..], m2 - 1);
            var k :| 0 <= k < |offs| - 1 && mask[1..][k] && offs[1..][k] == rest[m2 - 1];
            assert mask[k + 1] && offs[k + 1] == sel[m2];
          }
        }
      } else {
        assert sel == rest;
      }
    }
  }

  /** A slot of a selected cell receives the id at that cell's slot 1. */
  lemma PatchHit(buf: seq<int>, sel: seq<int>, first: int, last: int, m: nat, p: int)
    requires 1 <= first <= last && Separated(sel, last, |buf|) && m < |sel|
    requires sel[m] + first <= p <= sel[m] + last
    ensures SlotsInRange(sel, 1, last, |buf|)
    ensures PatchSlots(buf, sel, first, last)[p] == buf[sel[m] + 1]
  {
    SlotInRange(sel, 1, last, |buf|, 1);
    WriteSlotsHit(buf, sel, Gather(buf, Shift(sel, 1)), first, last, m, p - sel[m]);
  }

  /** A position that is no slot of a selected cell keeps its value. */
  lemma PatchMiss(buf: seq<int>, sel: seq<int>, first: int, last: int, p: int)
    requires 1 <= first <= last && Separated(sel, last, |buf|) && 0 <= p < |buf|
    requires forall m :: 0 <= m < |sel| ==> !(sel[m] + first <= p <= sel[m] + last)
    ensures SlotsInRange(sel, 1, last, |buf|)
    ensures PatchSlots(buf, sel, first, last)[p] == buf[p]
  {
    SlotInRange(sel, 1, last, |buf|, 1);
    WriteSlotsMiss(buf, sel, Gather(buf, Shift(sel, 1)), first, last, p);
  }

  /** One `if np.any(mask)` block on cells whose offsets are in range and ordered: slots
      `first` … `last` of every masked cell hold the id that was at its slot 1, and every
      position outside those slots keeps its value. */
  lemma StepEffect(buf: seq<int>, offs: seq<int>, mask: seq<bool>, first: int, last: int)
    requires 1 <= first <= last && |offs| == |mask|
    requires forall k :: 0 <= k < |offs| && mask[k] ==> 0 <= offs[k] && offs[k] + last < |buf|
    requires forall k1, k2 :: 0 <= k1 < k2 < |offs| && mask[k1] && mask[k2] ==> offs[k1] + last < offs[k2]
    ensures true in mask ==> StepInRange(|buf|, offs, mask, last)
    ensures forall k, p :: 0 <= k < |offs| && mask[k] && offs[k] + first <= p <= offs[k] + last ==>
      Step(buf, offs, mask, first, last)[p] == buf[offs[k] + 1]
    ensures forall p :: 0 <= p < |buf| && (forall k :: 0 <= k < |offs| && mask[k] ==> !(offs[k] + first <= p <= offs[k] + last)) ==>
      Step(buf, offs, mask, first, last)[p] == buf[p]
  {
    var sel := Select(offs, mask);
    SelectSeparated(offs, mask, last, |buf|);
    SlotInRange(sel, 1, last, |buf|, 1);
    if true in mask {
      forall k, p | 0 <= k < |offs| && mask[k] && offs[k] + first <= p <= offs[k] + last
        ensures Step(buf, offs, mask, first, last)[p] == buf[offs[k] + 1]
      {
        SelectHit(offs, mask, k);
        var m :| 0 <= m < |sel| && sel[m] == offs[k];
        PatchHit(buf, sel, first, last, m, p);
      }
      forall p | 0 <= p < |buf| && (forall k :: 0 <= k < |offs| && mask[k] ==> !(offs[k] + first <= p <= offs[k] + last))
        ensures Step(buf, offs, mask, first, last)[p] == buf[p]
      {
        forall m | 0 <= m < |sel|
          ensures !(sel[m] + first <= p <= sel[m] + last)
        {
          SelectFrom(offs, mask, m);
        }
        PatchMiss(buf, sel, first, last, p);
      }
    }
  }

  // ---------------------------------------------------------------------------
  // linear_copy on a well-laid-out buffer

  /** The tags whose cells `linear_copy` patches. */
  predicate Patched(t: int)
  {
    t == VTK_QUADRATIC_QUAD || t == VTK_QUADRATIC_TRIANGLE
  }

  /** The first slot the patch overwrites: 5 for a quadratic quad, 4 for a quadratic triangle. */
  function FirstSlot(t: int): (first: int)
  {
    if t == VTK_QUADRATIC_QUAD then 5 else 4
  }

  /** The last slot the patch overwrites: 8 for a quadratic quad, 6 for a quadratic triangle. */
  function LastSlot(t: int): (last: int)
  {
    if t == VTK_QUADRATIC_QUAD then 8 else 6
  }

  /** One offset per cell; every patched cell's run, up to its last patched slot, lies inside
      the buffer, and the runs of patched cells come in order without overlapping, as they do
      in a buffer of runs whose offsets are the run heads. */
  predicate PatchLayout(n: nat, offs: seq<int>, ts: seq<int>)
  {
    |offs| == |ts| &&
    (forall k :: 0 <= k < |ts| && Patched(ts[k]) ==> 0 <= offs[k] && offs[k] + LastSlot(ts[k]) < n) &&
    (forall k1, k2 :: 0 <= k1 < k2 < |ts| && Patched(ts[k1]) && Patched(ts[k2]) ==>
      offs[k1] + LastSlot(ts[k1]) < offs[k2])
  }

  /** Position `p` is one of the slots `linear_copy` overwrites. */
  predicate InPatch(offs: seq<int>, ts: seq<int>, p: int)
    requires |offs| == |ts|
  {
    exists k :: 0 <= k < |ts| && Patched(ts[k]) && offs[k] + FirstSlot(ts[k]) <= p <= offs[k] + LastSlot(ts[k])
  }

  /** The layout restricted to the cells of one patched tag, in the form `StepEffect` asks for. */
  lemma MaskLayout(n: nat, offs: seq<int>, ts: seq<int>, tag: int)
    requires PatchLayout(n, offs, ts) && Patched(tag)
    ensures forall k :: 0 <= k < |offs| && Mask(ts, tag)[k] ==> 0 <= offs[k] && offs[k] + LastSlot(tag) < n
    ensures forall k1, k2 :: 0 <= k1 < k2 < |offs| && Mask(ts, tag)[k1] && Mask(ts, tag)[k2] ==>
      offs[k1] + LastSlot(tag) < offs[k2]
  {
  }

  /** The block of one patched tag, as `StepEffect` describes it, on the cells of that tag. */
  lemma TagStep(buf: seq<int>, offs: seq<int>, ts: seq<int>, tag: int)
    requires PatchLayout(|buf|, offs, ts) && Patched(tag)
    ensures var mask := Mask(ts, tag);
      (true in mask ==> StepInRange(|buf|, offs, mask, LastSlot(tag))) &&
      (forall k, p :: 0 <= k < |ts| && ts[k] == tag && offs[k] + FirstSlot(tag) <= p <= offs[k] + LastSlot(tag) ==>
        Step(buf, offs, mask, FirstSlot(tag), LastSlot(tag))[p] == buf[offs[k] + 1]) &&
      (forall p :: 0 <= p < |buf| && (forall k :: 0 <= k < |ts| && ts[k] == tag ==> !(offs[k] + FirstSlot(tag) <= p <= offs[k] + LastSlot(tag))) ==>
        Step(buf, offs, mask, FirstSlot(tag), LastSlot(tag))[p] == buf[p])
  {
    MaskLayout(|buf|, offs, ts, tag);
    StepEffect(buf, offs, Mask(ts, tag), FirstSlot(tag), LastSlot(tag));
  }

  /** Both blocks of the patch, as `TagStep` describes them. */
  lemma BothSteps(buf: seq<int>, offs: seq<int>, ts: seq<int>)
    requires PatchLayout(|buf|, offs, ts)
    ensures PatchesInRange(|buf|, offs, ts)
    ensures var quads := Step(buf, offs, Mask(ts, VTK_QUADRATIC_QUAD), 5, 8);
      LinearCells(buf, offs, ts) == Step(quads, offs, Mask(ts, VTK_QUADRATIC_TRIANGLE), 4, 6)
  {
    TagStep(buf, offs, ts, VTK_QUADRATIC_QUAD);
    TagStep(Step(buf, offs, Mask(ts, VTK_QUADRATIC_QUAD), 5, 8), offs, ts, VTK_QUADRATIC_TRIANGLE);
  }

  /** A slot of a quadratic quad: the quad block writes it, the triangle block leaves it. */
  lemma QuadSlot(buf: seq<int>, offs: seq<int>, ts: seq<int>, k: nat, p: int)
    requires PatchLayout(|buf|, offs, ts) && k < |ts| && ts[k] == VTK_QUADRATIC_QUAD
    requires offs[k] + 5 <= p <= offs[k] + 8
    ensures PatchesInRange(|buf|, offs, ts)
    ensures LinearCells(buf, offs, ts)[p] == buf[offs[k] + 1]
  {
    BothSteps(buf, offs, ts);
    TagStep(buf, offs, ts, VTK_QUADRATIC_QUAD);
    TagStep(Step(buf, offs, Mask(ts, VTK_QUADRATIC_QUAD), 5, 8), offs, ts, VTK_QUADRATIC_TRIANGLE);
    assert forall k' :: 0 <= k' < |ts| && ts[k'] == VTK_QUADRATIC_TRIANGLE ==> !(offs[k'] + 4 <= p <= offs[k'] + 6);
  }

  /** A slot of a quadratic triangle: the triangle block writes it with slot 1, which the quad block left. */
  lemma TriangleSlot(buf: seq<int>, offs: seq<int>, ts: seq<int>, k: nat, p: int)
    requires PatchLayout(|buf|, offs, ts) && k < |ts| && ts[k] == VTK_QUADRATIC_TRIANGLE
    requires offs[k] + 4 <= p <= offs[k] + 6
    ensures PatchesInRange(|buf|, offs, ts)
    ensures LinearCells(buf, offs, ts)[p] == buf[offs[k] + 1]
  {
    BothSteps(buf, offs, ts);
    TagStep(buf, offs, ts, VTK_QUADRATIC_QUAD);
    TagStep(Step(buf, offs, Mask(ts, VTK_QUADRATIC_QUAD), 5, 8), offs, ts, VTK_QUADRATIC_TRIANGLE);
    assert forall k' :: 0 <= k' < |ts| && ts[k'] == VTK_QUADRATIC_QUAD ==> !(offs[k'] + 5 <= offs[k] + 1 <= offs[k'] + 8);
  }

  /** A patched slot holds the cell's first point id from the original buffer. */
  lemma PatchedSlot(buf: seq<int>, offs: seq<int>, ts: seq<int>, k: nat, p: int)
    requires PatchLayout(|buf|, offs, ts) && k < |ts| && Patched(ts[k])
    requires offs[k] + FirstSlot(ts[k]) <= p <= offs[k] + LastSlot(ts[k])
    ensures PatchesInRange(|buf|, offs, ts)
    ensures LinearCells(buf, offs, ts)[p] == buf[offs[k] + 1]
  {
    if ts[k] == VTK_QUADRATIC_QUAD {
      QuadSlot(buf, offs, ts, k, p);
    } else {
      TriangleSlot(buf, offs, ts, k, p);
    }
  }

  /** A position outside every patch keeps its value. */
  lemma UnpatchedSlot(buf: seq<int>, offs: seq<int>, ts: seq<int>, p: int)
    requires PatchLayout(|buf|, offs, ts) && 0 <= p < |buf| && !InPatch(offs, ts, p)
    ensures PatchesInRange(|buf|, offs, ts)
    ensures LinearCells(buf, offs, ts)[p] == buf[p]
  {
    BothSteps(buf, offs, ts);
    TagStep(buf, offs, ts, VTK_QUADRATIC_QUAD);
    var quads := Step(buf, offs, Mask(ts, VTK_QUADRATIC_QUAD), 5, 8);
    TagStep(quads, offs, ts, VTK_QUADRATIC_TRIANGLE);
    assert forall k :: 0 <= k < |ts| && ts[k] == VTK_QUADRATIC_QUAD ==> !(offs[k] + 5 <= p <= offs[k] + 8);
    assert forall k :: 0 <= k < |ts| && ts[k] == VTK_QUADRATIC_TRIANGLE ==> !(offs[k] + 4 <= p <= offs[k] + 6);
  }

  /** The count and the slots before the patch of a patched cell lie outside every patch. */
  lemma HeadOutsidePatch(n: nat, offs: seq<int>, ts: seq<int>, k: nat, p: int)
    requires PatchLayout(n, offs, ts) && k < |ts| && Patched(ts[k])
    requires offs[k] <= p < offs[k] + FirstSlot(ts[k])
    ensures !InPatch(offs, ts, p)
  {
    forall k' | 0 <= k' < |ts| && Patched(ts[k'])
      ensures !(offs[k'] + FirstSlot(ts[k']) <= p <= offs[k'] + LastSlot(ts[k']))
    {
    }
  }

  /** On a well-laid-out buffer `linear_copy` raises no IndexError; it sets slots 5 to 8 of every
      quadratic quad and slots 4 to 6 of every quadratic triangle to the cell's first point id,
      read from the original buffer, and changes no position outside those slots; in particular
      the count and the slots before the patch of every patched cell keep their values. */
  lemma LinearCellsPatches(buf: seq<int>, offs: seq<int>, ts: seq<int>)
    requires PatchLayout(|buf|, offs, ts)
    ensures PatchesInRange(|buf|, offs, ts)
    ensures forall k, p :: 0 <= k < |ts| && Patched(ts[k]) && offs[k] + FirstSlot(ts[k]) <= p <= offs[k] + LastSlot(ts[k]) ==>
      LinearCells(buf, offs, ts)[p] == buf[offs[k] + 1]
    ensures forall p :: 0 <= p < |buf| && !InPatch(offs, ts, p) ==> LinearCells(buf, offs, ts)[p] == buf[p]
    ensures forall k, p :: 0 <= k < |ts| && Patched(ts[k]) && offs[k] <= p < offs[k] + FirstSlot(ts[k]) ==>
      !InPatch(offs, ts, p)
  {
    BothSteps(buf, offs, ts);
    forall k, p | 0 <= k < |ts| && Patched(ts[k]) && offs[k] + FirstSlot(ts[k]) <= p <= offs[k] + LastSlot(ts[k])
      ensures LinearCells(buf, offs, ts)[p] == buf[offs[k] + 1]
    {
      PatchedSlot(buf, offs, ts, k, p);
    }
    forall p | 0 <= p < |buf| && !InPatch(offs, ts, p)
      ensures LinearCells(buf, offs, ts)[p] == buf[p]
    {
      UnpatchedSlot(buf, offs, ts, p);
    }
    forall k, p | 0 <= k < |ts| && Patched(ts[k]) && offs[k] <= p < offs[k] + FirstSlot(ts[k])
      ensures !InPatch(offs, ts, p)
    {
      HeadOutsidePatch(|buf|, offs, ts, k, p);
    }
  }

  // ---------------------------------------------------------------------------
  // linear_copy on a buffer of runs

  /** Every quadratic quad has at least 8 ids and every quadratic triangle at least 6, one tag per cell. */
  predicate RunsFit(cells: seq<Cell>, ts: seq<int>)
  {
    |ts| == |cells| && forall k :: 0 <= k < |cells| && Patched(ts[k]) ==> |cells[k]| >= LastSlot(ts[k])
  }

  /** A cell as `linear_copy` leaves it: ids `FirstSlot - 1` … `LastSlot - 1` of a patched cell
      become its first id, all the others stay. */
  function PatchCell(c: Cell, t: int): (r: Cell)
    requires Patched(t) ==> |c| >= LastSlot(t)
    ensures |r| == |c|
  {
    seq(|c|, i requires 0 <= i < |c| =>
      if Patched(t) && FirstSlot(t) - 1 <= i <= LastSlot(t) - 1 then c[0] else c[i])
  }

  function PatchedCells(cells: seq<Cell>, ts: seq<int>): (r: seq<Cell>)
    requires RunsFit(cells, ts)
    ensures |r| == |cells|
  {
    seq(|cells|, k requires 0 <= k < |cells| => PatchCell(cells[k], ts[k]))
  }

  /** The runs of an encoded buffer, with offsets at the run heads, are laid out as `PatchLayout` asks. */
  lemma EncodedLayout(cells: seq<Cell>, ts: seq<int>)
    requires RunsFit(cells, ts)
    ensures PatchLayout(|Encode(cells)|, Offsets(cells, 0), ts)
  {
    var offs := Offsets(cells, 0);
    forall k | 0 <= k < |ts| && Patched(ts[k])
      ensures 0 <= offs[k] && offs[k] + LastSlot(ts[k]) < |Encode(cells)|
    {
      RunAt(cells, 0, k);
    }
    forall k1, k2 | 0 <= k1 < k2 < |ts| && Patched(ts[k1]) && Patched(ts[k2])
      ensures offs[k1] + LastSlot(ts[k1]) < offs[k2]
    {
      RunsOrdered(cells, 0, k1, k2);
    }
  }

  /** Id `i` of a patched cell. */
  lemma PatchCellAt(c: Cell, t: int, i: nat)
    requires (Patched(t) ==> |c| >= LastSlot(t)) && i < |c|
    ensures PatchCell(c, t)[i] == if Patched(t) && FirstSlot(t) - 1 <= i <= LastSlot(t) - 1 then c[0] else c[i]
  {
  }

  /** A position in run `k` outside run `k`'s own patch is outside every patch. */
  lemma OutsidePatch(cells: seq<Cell>, ts: seq<int>, k: nat, p: int)
    requires RunsFit(cells, ts) && k < |cells|
    requires Offsets(cells, 0)[k] <= p <= Offsets(cells, 0)[k] + |cells[k]|
    requires !(Patched(ts[k]) && Offsets(cells, 0)[k] + FirstSlot(ts[k]) <= p <= Offsets(cells, 0)[k] + LastSlot(ts[k]))
    ensures !InPatch(Offsets(cells, 0), ts, p)
  {
    var offs := Offsets(cells, 0);
    forall k' | 0 <= k' < |ts| && Patched(ts[k'])
      ensures !(offs[k'] + FirstSlot(ts[k']) <= p <= offs[k'] + LastSlot(ts[k']))
    {
      if k' < k {
        RunsOrdered(cells, 0, k', k);
      } else if k' > k {
        RunsOrdered(cells, 0, k, k');
      }
    }
  }

  /** Position `p` of an encoding, inside run `k`: the count at the run's head, an id after it. */
  lemma EncodedAt(cells: seq<Cell>, k: nat, p: int)
    requires k < |cells| && Offsets(cells, 0)[k] <= p <= Offsets(cells, 0)[k] + |cells[k]|
    ensures 0 <= p < |Encode(cells)|
    ensures Encode(cells)[p] ==
      if p == Offsets(cells, 0)[k] then |cells[k]| else cells[k][p - Offsets(cells, 0)[k] - 1]
  {
    var o, c := Offsets(cells, 0)[k], cells[k];
    RunAt(cells, 0, k);
    var run := Encode(cells)[o..o + 1 + |c|];
    assert run == [|c|] + c;
    assert Encode(cells)[p] == run[p - o];
    if p == o {
      assert run[0] == |c|;
    } else {
      assert run[p - o] == c[p - o - 1];
    }
  }

  /** A patched slot of run `k`: both sides hold the run's first id. */
  lemma LinearCellsOfRunsPatched(cells: seq<Cell>, ts: seq<int>, k: nat, p: int)
    requires RunsFit(cells, ts) && k < |cells| && Patched(ts[k])
    requires Offsets(cells, 0)[k] + FirstSlot(ts[k]) <= p <= Offsets(cells, 0)[k] + LastSlot(ts[k])
    requires PatchesInRange(|Encode(cells)|, Offsets(cells, 0), ts)
    ensures 0 <= p < |Encode(cells)|
    ensures LinearCells(Encode(cells), Offsets(cells, 0), ts)[p] == cells[k][0]
  {
    EncodedLayout(cells, ts);
    PatchedSlot(Encode(cells), Offsets(cells, 0), ts, k, p);
    EncodedAt(cells, k, Offsets(cells, 0)[k] + 1);
  }

  /** Any other position of run `k`: both sides hold what the original encoding holds. */
  lemma LinearCellsOfRunsUntouched(cells: seq<Cell>, ts: seq<int>, k: nat, p: int)
    requires RunsFit(cells, ts) && k < |cells|
    requires Offsets(cells, 0)[k] <= p <= Offsets(cells, 0)[k] + |cells[k]|
    requires !(Patched(ts[k]) && Offsets(cells, 0)[k] + FirstSlot(ts[k]) <= p <= Offsets(cells, 0)[k] + LastSlot(ts[k]))
    requires PatchesInRange(|Encode(cells)|, Offsets(cells, 0), ts)
    ensures 0 <= p < |Encode(cells)|
    ensures LinearCells(Encode(cells), Offsets(cells, 0), ts)[p] == Encode(cells)[p]
  {
    EncodedAt(cells, k, p);
    EncodedLayout(cells, ts);
    OutsidePatch(cells, ts, k, p);
    UnpatchedSlot(Encode(cells), Offsets(cells, 0), ts, p);
  }

  /** Id `i` of patched cell `k`. */
  lemma PatchedCellsAt(cells: seq<Cell>, ts: seq<int>, k: nat, i: nat)
    requires RunsFit(cells, ts) && k < |cells| && i < |cells[k]|
    ensures |PatchedCells(cells, ts)[k]| == |cells[k]|
    ensures PatchedCells(cells, ts)[k][i] ==
      if Patched(ts[k]) && FirstSlot(ts[k]) - 1 <= i <= LastSlot(ts[k]) - 1 then cells[k][0] else cells[k][i]
  {
    PatchCellAt(cells[k], ts[k], i);
  }

  /** Position `p` of the patched encoding, inside run `k`: the count, or an id of the patched cell. */
  lemma EncodedPatchedAt(cells: seq<Cell>, ts: seq<int>, k: nat, p: int)
    requires RunsFit(cells, ts) && k < |cells|
    requires Offsets(PatchedCells(cells, ts), 0) == Offsets(cells, 0)
    requires Offsets(cells, 0)[k] <= p <= Offsets(cells, 0)[k] + |cells[k]|
    ensures 0 <= p < |Encode(PatchedCells(cells, ts))|
    ensures var o := Offsets(cells, 0)[k];
      Encode(PatchedCells(cells, ts))[p] ==
        if p == o then |cells[k]| else PatchedCells(cells, ts)[k][p - o - 1]
  {
    assert |PatchedCells(cells, ts)[k]| == |cells[k]|;
    EncodedAt(PatchedCells(cells, ts), k, p);
  }

  /** One position of `LinearCellsOfRuns`. */
  lemma LinearCellsOfRunsAt(cells: seq<Cell>, ts: seq<int>, p: int)
    requires RunsFit(cells, ts) && 0 <= p < |Encode(cells)|
    requires PatchesInRange(|Encode(cells)|, Offsets(cells, 0), ts)
    requires Offsets(PatchedCells(cells, ts), 0) == Offsets(cells, 0)
    requires |Encode(PatchedCells(cells, ts))| == |Encode(cells)|
    ensures LinearCells(Encode(cells), Offsets(cells, 0), ts)[p] == Encode(PatchedCells(cells, ts))[p]
  {
    var offs := Offsets(cells, 0);
    RunCovering(cells, 0, p);
    var k :| 0 <= k < |cells| && offs[k] <= p <= offs[k] + |cells[k]|;
    EncodedPatchedAt(cells, ts, k, p);
    if p > offs[k] {
      PatchedCellsAt(cells, ts, k, p - offs[k] - 1);
    }
    if Patched(ts[k]) && offs[k] + FirstSlot(ts[k]) <= p <= offs[k] + LastSlot(ts[k]) {
      LinearCellsOfRunsPatched(cells, ts, k, p);
    } else {
      EncodedAt(cells, k, p);
      LinearCellsOfRunsUntouched(cells, ts, k, p);
    }
  }

  /** On a buffer of runs, with one offset per run at its head, the cells buffer `linear_copy`
      returns is the encoding of the patched cells: each quadratic quad keeps its count and
      its first four ids and has ids 5 to 8 replaced by its first id, each quadratic triangle
      keeps its count and first three ids and has ids 4 to 6 replaced by its first id, and
      every other run comes back as it was. */
  lemma LinearCellsOfRuns(cells: seq<Cell>, ts: seq<int>)
    requires RunsFit(cells, ts)
    ensures PatchesInRange(|Encode(cells)|, Offsets(cells, 0), ts)
    ensures LinearCells(Encode(cells), Offsets(cells, 0), ts) == Encode(PatchedCells(cells, ts))
  {
    EncodedLayout(cells, ts);
    LinearCellsPatches(Encode(cells), Offsets(cells, 0), ts);
    OffsetsByLengths(cells, PatchedCells(cells, ts), 0);
    assert Offsets(PatchedCells(cells, ts), 0) == Offsets(cells, 0);
    forall p | 0 <= p < |Encode(cells)|
      ensures LinearCells(Encode(cells), Offsets(cells, 0), ts)[p] == Encode(PatchedCells(cells, ts))[p]
    {
      LinearCellsOfRunsAt(cells, ts, p);
    }
  }

  // ---------------------------------------------------------------------------
  // The type array

  /** The copy's types leave a type array alone exactly when it holds no quadratic tag;
      the copy itself holds none, so a second relabelling changes nothing. */
  lemma LinearTypesFixed(ts: seq<int>)
    ensures LinearTypes(ts) == ts <==> forall k :: 0 <= k < |ts| ==> !IsQuadratic(ts[k])
    ensures forall k :: 0 <= k < |ts| ==> !IsQuadratic(LinearTypes(ts)[k])
    ensures LinearTypes(LinearTypes(ts)) == LinearTypes(ts)
  {
    forall k | 0 <= k < |ts|
      ensures LinearTypes(ts)[k] != ts[k] <==> IsQuadratic(ts[k])
      ensures !IsQuadratic(LinearTypes(ts)[k]) && LinearTag(LinearTypes(ts)[k]) == LinearTypes(ts)[k]
    {
      LinearTagChangesOnlyQuadratic(ts[k]);
      LinearTagIdempotent(ts[k]);
    }
    if LinearTypes(ts) != ts {
      var k :| 0 <= k < |ts| && LinearTypes(ts)[k] != ts[k];
    }
  }

  /** Without a quadratic quad or triangle among the types, the cells buffer is copied unchanged. */
  lemma UnpatchedCellsUnchanged(buf: seq<int>, offs: seq<int>, ts: seq<int>)
    requires forall k :: 0 <= k < |ts| ==> !Patched(ts[k])
    ensures PatchesInRange(|buf|, offs, ts)
    ensures LinearCells(buf, offs, ts) == buf
  {
    assert !(true in Mask(ts, VTK_QUADRATIC_QUAD));
    assert !(true in Mask(ts, VTK_QUADRATIC_TRIANGLE));
  }

  /** On a grid of linear cells only, `linear_copy` returns the types and the cells as they were. */
  lemma AllLinearUnchanged(buf: seq<int>, offs: seq<int>, ts: seq<int>)
    requires forall k :: 0 <= k < |ts| ==> !IsQuadratic(ts[k])
    ensures PatchesInRange(|buf|, offs, ts)
    ensures LinearTypes(ts) == ts && LinearCells(buf, offs, ts) == buf
  {
    LinearTypesFixed(ts);
    UnpatchedCellsUnchanged(buf, offs, ts);
  }

  // ---------------------------------------------------------------------------
  // Single cells

  /** A quadratic quad `[8, p0 … p7]` comes out as a quad whose four mid-edge slots repeat `p0`. */
  lemma QuadraticQuadCell(p0: int, p1: int, p2: int, p3: int, p4: int, p5: int, p6: int, p7: int)
    ensures var buf, offs, ts := [8, p0, p1, p2, p3, p4, p5, p6, p7], [0], [VTK_QUADRATIC_QUAD];
      PatchesInRange(|buf|, offs, ts) &&
      LinearTypes(ts) == [VTK_QUAD] &&
      LinearCells(buf, offs, ts) == [8, p0, p1, p2, p3, p0, p0, p0, p0]
  {
    var buf, offs, ts := [8, p0, p1, p2, p3, p4, p5, p6, p7], [0], [VTK_QUADRATIC_QUAD];
    LinearCellsPatches(buf, offs, ts);
    var r := LinearCells(buf, offs, ts);
    forall p | 0 <= p < 5
      ensures r[p] == buf[p]
    {
      assert !InPatch(offs, ts, p);
    }
    forall p | 5 <= p <= 8
      ensures r[p] == p0
    {
      assert Patched(ts[0]) && offs[0] + FirstSlot(ts[0]) <= p <= offs[0] + LastSlot(ts[0]);
    }
    assert r == [8, p0, p1, p2, p3, p0, p0, p0, p0];
  }

  /** A quadratic triangle `[6, p0 … p5]` comes out as a triangle whose three mid-edge slots repeat `p0`. */
  lemma QuadraticTriangleCell(p0: int, p1: int, p2: int, p3: int, p4: int, p5: int)
    ensures var buf, offs, ts := [6, p0, p1, p2, p3, p4, p5], [0], [VTK_QUADRATIC_TRIANGLE];
      PatchesInRange(|buf|, offs, ts) &&
      LinearTypes(ts) == [VTK_TRIANGLE] &&
      LinearCells(buf, offs, ts) == [6, p0, p1, p2, p0, p0, p0]
  {
    var buf, offs, ts := [6, p0, p1, p2, p3, p4, p5], [0], [VTK_QUADRATIC_TRIANGLE];
    LinearCellsPatches(buf, offs, ts);
    var r := LinearCells(buf, offs, ts);
    forall p | 0 <= p < 4
      ensures r[p] == buf[p]
    {
      assert !InPatch(offs, ts, p);
    }
    forall p | 4 <= p <= 6
      ensures r[p] == p0
    {
      assert Patched(ts[0]) && offs[0] + FirstSlot(ts[0]) <= p <= offs[0] + LastSlot(ts[0]);
    }
    assert r == [6, p0, p1, p2, p0, p0, p0];
  }

  /** A quadratic tetrahedron keeps its run of ten ids and only changes its tag. */
  lemma QuadraticTetraCell(ids: seq<int>)
    requires |ids| == 10
    ensures var buf, offs, ts := [10] + ids, [0], [VTK_QUADRATIC_TETRA];
      PatchesInRange(|buf|, offs, ts) &&
      LinearTypes(ts) == [VTK_TETRA] &&
      LinearCells(buf, offs, ts) == buf
  {
    UnpatchedCellsUnchanged([10] + ids, [0], [VTK_QUADRATIC_TETRA]);
  }
}

=== FILE: outcomes.dfy ===
/** Errors that the model reports, and the wrappers that carry them. */
module Outcomes {

  /** The failures the model reports. All but `MalformedConnectivity` are raised by the
      modelled code; that one is reported only by the reference reading `Decode`, since
      the walk of the setters raises nothing on a malformed buffer. */
  datatype Error =
    | MalformedConnectivity  // `Decode` only: a run declares more ids than the buffer still holds
    | IndexError             // numpy fancy indexing out of range, or a mask of the wrong length
    | ShapeMismatch          // x, y and z of a structured grid do not have one shape
    | ReshapeError           // numpy cannot reshape an array of this size to these dimensions
    | DimensionsError        // `SetDimensions` given other than three extents

  datatype Result<T> = Ok(value: T) | Err(error: Error)

  datatype Outcome = Pass | Fail(error: Error)
}

=== FILE: poly_data.dfy ===
/**
 * pyvista's `PolyData` as far as its connectivity goes: the `lines` and `faces`
 * setters, `_from_arrays`, `is_all_triangles`, and the vertex-cell paths of the
 * constructor. Point coordinates are carried as opaque values of type `P`.
 */
module PolyDataModel {
  import opened Connectivity

  /** A `vtkCellArray` after `SetCells(count, ids)`: the count as given and the flat id buffer. */
  datatype CellArray = CellArray(count: nat, ids: seq<int>)

  const NoCells := CellArray(0, [])

  /** The cell count the setters compute: the run walk on a 1-D buffer, the row count of a 2-D array. */
  method CountCells(arr: IdArray) returns (n: nat)
    requires Countable(arr)
    ensures n == CellCount(arr)
  {
    if arr.Flat? {
      var _, runs := CountRuns(arr.data);
      n := runs;
    } else {
      n := arr.nrows;
    }
  }

  class PolyData<P> {
    var points: seq<P>
    var verts: CellArray
    var lines: CellArray
    var polys: CellArray

    /** An empty mesh. */
    constructor ()
      ensures points == [] && verts == NoCells && lines == NoCells && polys == NoCells
    {
      points, verts, lines, polys := [], NoCells, NoCells, NoCells;
    }

    /** `n_cells`: the cells of all the cell arrays. */
    function NumCells(): (n: nat)
      reads this
    {
      verts.count + lines.count + polys.count
    }

    /** The `lines` setter: counts the runs of a 1-D buffer (a 2-D array by its rows) and stores the ids. */
    method SetLines(arr: IdArray)
      requires Countable(arr)
      modifies this
      ensures lines == CellArray(CellCount(arr), arr.data)
      ensures points == old(points) && verts == old(verts) && polys == old(polys)
    {
      var n := CountCells(arr);
      lines := CellArray(n, arr.data);
    }

    /** Counts the cells of `arr` and files them as the vertex cells or as the polygons. */
    method StoreCells(arr: IdArray, toVerts: bool)
      requires Countable(arr)
      modifies this
      ensures toVerts ==> verts == CellArray(CellCount(arr), arr.data) && polys == old(polys)
      ensures !toVerts ==> polys == CellArray(CellCount(arr), arr.data) && verts == old(verts)
      ensures points == old(points) && lines == old(lines)
    {
      var n := CountCells(arr);
      if toVerts {
        verts := CellArray(n, arr.data);
      } else {
        polys := CellArray(n, arr.data);
      }
    }

    /** The `faces` setter: as `SetLines`, but a 2-D array of two columns becomes the
        vertex cells and anything else the polygons. */
    method SetFaces(arr: IdArray)
      requires Countable(arr)
      modifies this
      ensures ToVerts(arr, false) ==> verts == CellArray(CellCount(arr), arr.data) && polys == old(polys)
      ensures !ToVerts(arr, false) ==> polys == CellArray(CellCount(arr), arr.data) && verts == old(verts)
      ensures points == old(points) && lines == old(lines)
    {
      StoreCells(arr, arr.Matrix? && arr.ncols == 2);
    }

    /** `_from_arrays(vertices, faces, deep, verts)`: sets the points, then the cells,
        which go to the vertex cells when `verts` is asked for or the array has two columns. */
    method FromArrays(vertices: seq<P>, faces: IdArray, deep: bool, verts: bool)
      requires Countable(faces)
      modifies this
      ensures points == vertices && lines == old(lines)
      ensures ToVerts(faces, verts) ==>
        this.verts == CellArray(CellCount(faces), faces.data) && polys == old(polys)
      ensures !ToVerts(faces, verts) ==>
        polys == CellArray(CellCount(faces), faces.data) && this.verts == old(this.verts)
    {
      points := vertices;
      if deep || verts {
        StoreCells(faces, (faces.Matrix? && faces.ncols == 2) || verts);
      } else {
        SetFaces(faces);
      }
    }

    /** `is_all_triangles`, on the polygon buffer. */
    predicate IsAllTriangles()
      reads this
    {
      AllTriangles(polys.ids)
    }

    /** The constructor's one-array branch: `PolyData(points)` makes one vertex cell per point. */
    method FromPoints(pts: seq<P>)
      modifies this
      ensures points == pts
      ensures verts == CellArray(|pts|, VertexCells(|pts|))
      ensures lines == old(lines) && polys == old(polys)
    {
      VertexCellsWalk(|pts|);
      FromArrays(pts, Flat(VertexCells(|pts|)), false, true);
    }

    /** The constructor's closing step: points without any cell get vertex cells through
        the `faces` setter, which, being given a 1-D buffer, files them as polygons. */
    method EnsureVertexCells()
      modifies this
      ensures old(|points| > 0 && NumCells() == 0) ==>
        polys == CellArray(|points|, VertexCells(|points|)) && verts == old(verts)
      ensures !old(|points| > 0 && NumCells() == 0) ==> polys == old(polys) && verts == old(verts)
      ensures points == old(points) && lines == old(lines)
    {
      if |points| > 0 && NumCells() == 0 {
        VertexCellsWalk(|points|);
        SetFaces(Flat(VertexCells(|points|)));
      }
    }
  }
}

=== FILE: structured_grid.dfy ===
/**
 * pyvista's `StructuredGrid` as far as its shapes go: `_from_arrays` checks that x, y and z
 * share one shape, pads that shape with 1s to three dimensions, and stores the points in
 * Fortran order; the `x`, `y` and `z` properties reshape a column of the points back to the
 * dimensions in Fortran order. Coordinates are opaque values of one type `T` shared by x, y
 * and z, so the cast of `y` and `z` to the dtype of `x` when the points are filled is not modelled.
 */
module StructuredGridModel {
  import opened Outcomes

  /** A numpy array: its shape and its entries in C (row-major) order. */
  datatype NdArray<T> = NdArray(shape: seq<nat>, data: seq<T>)
  {
    /** numpy's invariant: as many entries as the shape holds. */
    predicate Valid()
    {
      |data| == Size(shape)
    }
  }

  /** The number of entries of an array of this shape. */
  function Size(shape: seq<nat>): (n: nat)
  {
    if shape == [] then 1 else shape[0] * Size(shape[1..])
  }

  /** The three extents of a structured grid. */
  datatype Dims = Dims(nx: nat, ny: nat, nz: nat)

  /** The number of points of a grid of these extents. */
  function Count(d: Dims): (n: nat)
  {
    d.nx * d.ny * d.nz
  }

  /** `list(shape) + [1] * (3 - len(shape))`, for a shape of at most three extents. */
  function PadShape(shape: seq<nat>): (padded: seq<nat>)
    requires |shape| <= 3
    ensures |padded| == 3 && padded[..|shape|] == shape
    ensures forall a :: |shape| <= a < 3 ==> padded[a] == 1
  {
    if |shape| == 0 then [1, 1, 1]
    else if |shape| == 1 then [shape[0], 1, 1]
    else if |shape| == 2 then [shape[0], shape[1], 1]
    else shape
  }

  /** The grid extents `_from_arrays` sets: the padded shape. */
  function Pad3(shape: seq<nat>): (d: Dims)
    requires |shape| <= 3
  {
    var p := PadShape(shape);
    Dims(p[0], p[1], p[2])
  }

  lemma Size1(a: nat)
    ensures Size([a]) == a
  {
    assert [a][1..] == [];
  }

  lemma Size2(a: nat, b: nat)
    ensures Size([a, b]) == a * b
  {
    assert [a, b][1..] == [b];
    Size1(b);
  }

  lemma Size3(a: nat, b: nat, c: nat)
    ensures Size([a, b, c]) == a * b * c
  {
    assert [a, b, c][1..] == [b, c];
    Size2(b, c);
    assert a * (b * c) == a * b * c;
  }

  /** Padding with 1s keeps the number of entries. */
  lemma PadKeepsSize(shape: seq<nat>)
    requires |shape| <= 3
    ensures Count(Pad3(shape)) == Size(shape)
  {
    if |shape| == 0 {
      assert Pad3(shape) == Dims(1, 1, 1);
    } else if |shape| == 1 {
      assert shape == [shape[0]] && Pad3(shape) == Dims(shape[0], 1, 1);
      Size1(shape[0]);
    } else if |shape| == 2 {
      assert shape == [shape[0], shape[1]] && Pad3(shape) == Dims(shape[0], shape[1], 1);
      Size2(shape[0], shape[1]);
    } else {
      assert PadShape(shape) == shape;
      assert shape == [shape[0], shape[1], shape[2]];
      Size3(shape[0], shape[1], shape[2]);
    }
  }

  // ---------------------------------------------------------------------------
  // Index arithmetic

  /** A point's position `(i, j, k)` in the grid. */
  datatype Index = Index(i: nat, j: nat, k: nat)

  predicate InGrid(d: Dims, m: Index)
  {
    m.i < d.nx && m.j < d.ny && m.k < d.nz
  }

  /** `q * n + r` with `r < n` and `q < m` stays below `m * n`. */
  lemma Fits(r: nat, n: nat, q: nat, m: nat)
    requires r < n && q < m
    ensures q * n + r < m * n
  {
    MulLe(q + 1, m, n);
  }

  lemma MulLe(a: int, b: int, n: int)
    requires a <= b && 0 <= n
    ensures a * n <= b * n
  {
    assert b * n - a * n == (b - a) * n;
  }

  /** The quotient and remainder of `q * n + r` by `n`, for `r < n`. */
  lemma DivMod(x: int, n: int, q: int, r: int)
    requires 0 <= r < n && x == q * n + r
    ensures x / n == q && x % n == r
  {
    var q', r' := x / n, x % n;
    assert x == q' * n + r';
    if q > q' {
      MulLe(q' + 1, q, n);
    } else if q < q' {
      MulLe(q + 1, q', n);
    }
  }

  /** Where C order keeps the point `m`: `(i * ny + j) * nz + k`. */
  function CIndex(d: Dims, m: Index): (c: nat)
    requires InGrid(d, m)
    ensures c < Count(d)
  {
    Fits(m.j, d.ny, m.i, d.nx);
    Fits(m.k, d.nz, m.i * d.ny + m.j, d.nx * d.ny);
    (m.i * d.ny + m.j) * d.nz + m.k
  }

  /** Where Fortran order keeps the point `m`: `i + nx * (j + ny * k)`. */
  function FIndex(d: Dims, m: Index): (f: nat)
    requires InGrid(d, m)
    ensures f < Count(d)
  {
    Fits(m.j, d.ny, m.k, d.nz);
    Fits(m.i, d.nx, m.k * d.ny + m.j, d.nz * d.ny);
    (m.k * d.ny + m.j) * d.nx + m.i
  }

  /** The point that C order keeps at position `c`. */
  function FromC(d: Dims, c: nat): (m: Index)
    requires c < Count(d)
    ensures InGrid(d, m)
  {
    assert d.nz > 0 && d.ny > 0;
    var row := c / d.nz;
    Fits(c % d.nz, d.nz, row, d.nx * d.ny);
    Index(row / d.ny, row % d.ny, c % d.nz)
  }

  /** The point that Fortran order keeps at position `f`. */
  function FromF(d: Dims, f: nat): (m: Index)
    requires f < Count(d)
    ensures InGrid(d, m)
  {
    assert d.nx > 0 && d.ny > 0;
    var col := f / d.nx;
    Fits(f % d.nx, d.nx, col, d.nz * d.ny);
    Index(f % d.nx, col % d.ny, col / d.ny)
  }

  /** C positions and grid points correspond one to one. */
  lemma CIndexBijective(d: Dims, m: Index, c: nat)
    requires InGrid(d, m) && c < Count(d)
    ensures FromC(d, CIndex(d, m)) == m
    ensures CIndex(d, FromC(d, c)) == c
  {
    DivMod(CIndex(d, m), d.nz, m.i * d.ny + m.j, m.k);
    DivMod(m.i * d.ny + m.j, d.ny, m.i, m.j);
    var row := c / d.nz;
    assert c == row * d.nz + c % d.nz;
    assert row == (row / d.ny) * d.ny + row % d.ny;
  }

  /** Fortran positions and grid points correspond one to one. */
  lemma FIndexBijective(d: Dims, m: Index, f: nat)
    requires InGrid(d, m) && f < Count(d)
    ensures FromF(d, FIndex(d, m)) == m
    ensures FIndex(d, FromF(d, f)) == f
  {
    DivMod(FIndex(d, m), d.nx, m.k * d.ny + m.j, m.i);
    DivMod(m.k * d.ny + m.j, d.ny, m.k, m.j);
    var col := f / d.nx;
    assert f == col * d.nx + f % d.nx;
    assert col == (col / d.ny) * d.ny + col % d.ny;
  }

  // ---------------------------------------------------------------------------
  // Fortran-order ravel and reshape

  /** `a.ravel('F')` for an array whose C-order entries are `data`. */
  function RavelF<T>(data: seq<T>, d: Dims): (flat: seq<T>)
    requires |data| == Count(d)
    ensures |flat| == Count(d)
  {
    seq(Count(d), f requires 0 <= f < Count(d) => data[CIndex(d, FromF(d, f))])
  }

  /** `flat.reshape(dims, order='F')`, as C-order entries. */
  function ReshapeF<T>(flat: seq<T>, d: Dims): (data: seq<T>)
    requires |flat| == Count(d)
    ensures |data| == Count(d)
  {
    seq(Count(d), c requires 0 <= c < Count(d) => flat[FIndex(d, FromC(d, c))])
  }

  /** Raveling in Fortran order puts the entry at point `(i, j, k)` at position
      `i + nx * (j + ny * k)`: the first index varies fastest. */
  lemma RavelFAt<T>(data: seq<T>, d: Dims, m: Index)
    requires |data| == Count(d) && InGrid(d, m)
    ensures RavelF(data, d)[FIndex(d, m)] == data[CIndex(d, m)]
  {
    FIndexBijective(d, m, 0);
  }

  /** Reshaping in Fortran order undoes raveling in Fortran order... */
  lemma ReshapeRavelF<T>(data: seq<T>, d: Dims)
    requires |data| == Count(d)
    ensures ReshapeF(RavelF(data, d), d) == data
  {
    forall c | 0 <= c < Count(d)
      ensures ReshapeF(RavelF(data, d), d)[c] == data[c]
    {
      var m := FromC(d, c);
      FIndexBijective(d, m, 0);
      CIndexBijective(d, m, c);
    }
  }

  /** ... and raveling undoes reshaping. */
  lemma RavelReshapeF<T>(flat: seq<T>, d: Dims)
    requires |flat| == Count(d)
    ensures RavelF(ReshapeF(flat, d), d) == flat
  {
    forall f | 0 <= f < Count(d)
      ensures RavelF(ReshapeF(flat, d), d)[f] == flat[f]
    {
      var m := FromF(d, f);
      CIndexBijective(d, m, 0);
      FIndexBijective(d, m, f);
    }
  }

  // ---------------------------------------------------------------------------
  // The grid

  /** `points[:, axis]`. */
  function Column<T>(points: seq<(T, T, T)>, axis: nat): (col: seq<T>)
    requires axis < 3
    ensures |col| == |points|
  {
    seq(|points|, p requires 0 <= p < |points| => if axis == 0 then points[p].0 else if axis == 1 then points[p].1 else points[p].2)
  }

  /** The points `_from_arrays` stores: row `f` is `(x.ravel('F')[f], y.ravel('F')[f], z.ravel('F')[f])`. */
  function GridPoints<T>(x: NdArray<T>, y: NdArray<T>, z: NdArray<T>, d: Dims): (pts: seq<(T, T, T)>)
    requires |x.data| == |y.data| == |z.data| == Count(d)
    ensures |pts| == Count(d)
  {
    var xs, ys, zs := RavelF(x.data, d), RavelF(y.data, d), RavelF(z.data, d);
    seq(Count(d), f requires 0 <= f < Count(d) => (xs[f], ys[f], zs[f]))
  }

  /** The `x`, `y` and `z` properties: a column of the points reshaped to the dimensions
      in Fortran order; numpy refuses when the sizes disagree. */
  function Coordinate<T>(points: seq<(T, T, T)>, d: Dims, axis: nat): (r: Result<NdArray<T>>)
    requires axis < 3
    ensures r.Ok? <==> |points| == Count(d)
    ensures r.Err? ==> r.error == ReshapeError
    ensures r.Ok? ==> r.value.shape == [d.nx, d.ny, d.nz] && r.value.Valid()
  {
    if |points| != Count(d) then Err(ReshapeError)
    else
      var data := ReshapeF(Column(points, axis), d);
      assert Size([d.nx, d.ny, d.nz][2..]) == d.nz;
      assert Size([d.nx, d.ny, d.nz][1..]) == d.ny * d.nz;
      Ok(NdArray([d.nx, d.ny, d.nz], data))
  }

  /** After `_from_arrays`, the `x`, `y` and `z` properties give back the arrays passed in,
      with their shape padded to three dimensions and their entries in the same order. */
  lemma CoordinatesOfArrays<T>(x: NdArray<T>, y: NdArray<T>, z: NdArray<T>)
    requires x.Valid() && y.Valid() && z.Valid()
    requires x.shape == y.shape == z.shape && |x.shape| <= 3
    ensures var d := Pad3(x.shape);
      |x.data| == Count(d) &&
      Coordinate(GridPoints(x, y, z, d), d, 0) == Ok(NdArray(PadShape(x.shape), x.data)) &&
      Coordinate(GridPoints(x, y, z, d), d, 1) == Ok(NdArray(PadShape(y.shape), y.data)) &&
      Coordinate(GridPoints(x, y, z, d), d, 2) == Ok(NdArray(PadShape(z.shape), z.data))
  {
    var d := Pad3(x.shape);
    PadKeepsSize(x.shape);
    var pts := GridPoints(x, y, z, d);
    assert PadShape(x.shape) == [d.nx, d.ny, d.nz];
    assert Column(pts, 0) == RavelF(x.data, d);
    assert Column(pts, 1) == RavelF(y.data, d);
    assert Column(pts, 2) == RavelF(z.data, d);
    ReshapeRavelF(x.data, d);
    ReshapeRavelF(y.data, d);
    ReshapeRavelF(z.data, d);
  }

  class StructuredGrid<T> {
    var points: seq<(T, T, T)>
    var dimensions: Dims

    /** An empty grid: no points, extents `(0, 0, 0)`. */
    constructor ()
      ensures points == [] && dimensions == Dims(0, 0, 0)
    {
      points, dimensions := [], Dims(0, 0, 0);
    }

    /** `_from_arrays(x, y, z)`: refuses arrays of different shapes; otherwise sets the
        dimensions to the padded shape and the points to the Fortran-order ravel of the
        three arrays. A shape of more than three extents is not padded and is refused by
        `SetDimensions`. Nothing changes when it fails. */
    method FromArrays(x: NdArray<T>, y: NdArray<T>, z: NdArray<T>) returns (r: Outcome)
      requires x.Valid() && y.Valid() && z.Valid()
      modifies this
      ensures r.Fail? <==> !(x.shape == y.shape == z.shape) || |x.shape| > 3
      ensures !(x.shape == y.shape == z.shape) ==> r == Fail(ShapeMismatch)
      ensures r.Fail? ==> points == old(points) && dimensions == old(dimensions)
      ensures r.Pass? ==>
        |x.shape| <= 3 && Count(Pad3(x.shape)) == Size(x.shape) &&
        dimensions == Pad3(x.shape) && points == GridPoints(x, y, z, Pad3(x.shape))
      ensures r.Pass? ==>
        Axis(0) == Ok(NdArray(PadShape(x.shape), x.data)) &&
        Axis(1) == Ok(NdArray(PadShape(y.shape), y.data)) &&
        Axis(2) == Ok(NdArray(PadShape(z.shape), z.data))
    {
      if !(x.shape == y.shape == z.shape) {
        return Fail(ShapeMismatch);
      }
      if |x.shape| > 3 {
        return Fail(DimensionsError);
      }
      var d := Pad3(x.shape);
      PadKeepsSize(x.shape);
      points := GridPoints(x, y, z, d);
      dimensions := d;
      CoordinatesOfArrays(x, y, z);
      r := Pass;
    }

    /** The `dimensions` setter: new extents, the points as they were. */
    method SetDimensions(d: Dims)
      modifies this
      ensures dimensions == d && points == old(points)
    {
      dimensions := d;
    }

    /** The `x` (axis 0), `y` (axis 1) and `z` (axis 2) properties. */
    function Axis(axis: nat): (r: Result<NdArray<T>>)
      requires axis < 3
      reads this
    {
      Coordinate(points, dimensions, axis)
    }
  }
}
